=== FILE: README.md ===
# Plugin registry model

This is a Dafny model of the plugin registry of `js-utils-microfrontend`. Plugins publish manifests. A manifest:

- names the plugin and gives its url;
- lists dependency urls;
- *defines* extension points, each with an attribute schema and element names;
- *provides* implementations for other plugins' extension points.

The model has three parts:

- **The manifest shape validator** (`PluginDataValidator.checkPluginData`) is in `plugin_data.dfy`, module `PluginDataModel`.
  - The manifest fields `name`, `url` and `defines` can hold any JSON value, with JavaScript truthiness and `typeof` written out. `dependencies` and `provides` are typed, as the manifest's interface declares them.
  - The validator is a method that builds the error list push by push.
  - That method is proved equal to a reference definition: the messages of the failed checks, in emission order.
  - The exclusivity, ordering and acceptance properties are proved about the reference definition.
- **Provider construction** (`new PluginProvider(pluginUrl, definition, provide)`) is in `plugin_provider.dfy`, module `PluginProviders`.
  - It is a function returning either the resolved provider or the set of schema violations.
  - The constructor throws on a violation.
- **The PluginManager** has two parts.
  - `plugin_registry.dfy` (module `PluginRegistry`) defines the registry state as a value. `Load`, `Commit`, `LoadDeps` and `AddProviders` give the meaning of `loadPlugin`. The registry invariant and the lemmas about what a load does are proved about them.
  - `plugin_manager.dfy` (module `PluginManagers`) holds the `PluginManager` class. Its fields are the registry's lists and maps, and its methods update them in place. Each method is proved to leave exactly the state that the corresponding function prescribes.
- **The unit tests' concrete cases** are proved in `plugin_scenarios.dfy`.

The manifest fetcher is a parameter. `server: map<string, PluginData>` maps each url to the manifest served there, and a url outside the map is a fetch that fails. Loads run one after another.

The unit tests pin down three behaviours of the loader that the model follows:

- A requested url that is already loaded is not fetched again.
- A manifest whose name is already taken is still fetched, and then dropped. This is the "same name" test, which serves the same name and url twice: two fetches, one plugin.
- `getPluginByUrl` is keyed by the *requested* url, not by the manifest's own `url` field.

## Model

| member | source | states |
|---|---|---|
| PluginDataModel.CheckPluginData | src/lib/plugin/model/PluginDataModel.ts:64-83 | The pushed error list equals the reference list: the messages of the failed checks, in the order name, url, defines. |
| PluginDataModel.CheckPluginDataDefine | src/lib/plugin/model/PluginDataModel.ts:98-101 | The per-define check accepts every define record. |
| PluginDataModel.CheckPluginDataProvides | src/lib/plugin/model/PluginDataModel.ts:123-126 | The provides check accepts every `provides` block. |
| PluginDataModel.CheckPluginDataDefines | src/lib/plugin/model/PluginDataModel.ts:85-96 | A truthy non-object `defines` gives exactly [DEFINES_TYPE]; an object gives []. |
| PluginDataModel.DefinesObjectHasNoErrors | src/lib/plugin/model/PluginDataModel.ts:89-101 | The reduce over the define records, each check returning [], yields []. |
| PluginDataModel.ShapeErrorsUnfold | src/lib/plugin/model/PluginDataModel.ts:64-83 | The reference result is the name errors, then the url errors, then the defines error. |
| PluginDataModel.NameErrorsExclusive | src/lib/plugin/model/PluginDataModel.ts:66-70 | NAME_MISSING exactly when `name` is falsy; NAME_TYPE exactly when it is truthy and not a string; never both. |
| PluginDataModel.UrlErrorsExclusive | src/lib/plugin/model/PluginDataModel.ts:71-75 | The same exclusive pair for `url`. |
| PluginDataModel.ShapeErrorsOrdered | src/lib/plugin/model/PluginDataModel.ts:50-83 | At most three errors, in strictly increasing emission rank, all among the validator's messages and never DATA_MISSING. |
| PluginDataModel.DefinesNotObject | src/lib/plugin/model/PluginDataModel.ts:86-88 | A truthy non-object `defines` is reported as DEFINES_TYPE, and the defines check returns only that. |
| PluginDataModel.ProvidesNeverReported | src/lib/plugin/model/PluginDataModel.ts:79-81 | Replacing `provides` never changes the errors; the provides check returns []. |
| PluginDataModel.ShapeAccepted | src/lib/plugin/model/PluginDataModel.ts:64-83 | No errors exactly when name and url are non-empty strings and `defines` is absent, falsy or an object. |
| PluginProviders.AttributeName | test/unit/plugin/object/PluginProvider.spec.ts:43-46 | A key ending in '?' declares the attribute named without the marker; any other key names itself. |
| PluginProviders.NewProvider | test/unit/plugin/object/PluginProvider.spec.ts:27 | A failed construction always reports at least one violation. |
| PluginProviders.ProviderSucceedsIff | test/unit/plugin/object/PluginProvider.spec.ts:89-223 | Construction succeeds exactly when every mandatory attribute is present, every present declared attribute has the declared type, and every declared element is present. |
| PluginProviders.ProviderResolved | test/unit/plugin/object/PluginProvider.spec.ts:69-86 | A built provider keeps the provide's plugin and takes its definition key from the Definition. Its name is `definition/provideName`. Its attributes are the supplied declared ones, unchanged. Its elements are exactly the declared ones, each url prefixed by the plugin url and each type unchanged. |
| PluginProviders.Provider.GetAttribute | test/unit/plugin/object/PluginProvider.spec.ts:78 | getAttribute returns a value exactly when the provider holds that attribute, and that value. |
| PluginProviders.Provider.GetElement | test/unit/plugin/object/PluginProvider.spec.ts:86 | getElement returns a resolved element exactly when the provider holds that element, and that element. |
| PluginProviders.QualifySplits | test/unit/plugin/object/PluginProvider.spec.ts:30-31 | A provider key is its definition key, a slash, and the provide name, and splits back into them. |
| PluginProviders.EmptyDefinitionProvider | test/unit/plugin/object/PluginProvider.spec.ts:11-34 | An empty schema accepts any provide and yields empty attributes and elements, keyed by the definition's plugin and name. |
| PluginProviders.AttributeTypeMismatchFails | test/unit/plugin/object/PluginProvider.spec.ts:89-159 | A declared attribute supplied with the other type (string for string[] or array for string) fails with a type mismatch. |
| PluginProviders.MissingMandatoryAttributeFails | test/unit/plugin/object/PluginProvider.spec.ts:161-193 | A missing attribute without the '?' marker fails. |
| PluginProviders.MissingElementFails | test/unit/plugin/object/PluginProvider.spec.ts:195-223 | A missing declared element fails, whatever the attributes. |
| PluginProviders.OptionalAttributeMayBeOmitted | test/unit/plugin/object/PluginProvider.spec.ts:36-78 | Omitting an optional attribute gives the same outcome as a schema without it, and the attribute is absent from the provider. |
| PluginRegistry.FindPlugin | test/unit/plugin/PluginManager.spec.ts:101 | getPlugin finds a plugin exactly when one with that name is registered, and returns a registered plugin with that name. |
| PluginRegistry.FilterProviders | test/unit/plugin/PluginManager.spec.ts:174 | getProviders returns only providers of the definition, and every listed key whose provider has that definition. |
| PluginRegistry.FilterProvidersOrdered | test/unit/plugin/PluginManager.spec.ts:174 | When providers sit under their names and the key order repeats no key, the listed providers appear once each, in the order their keys were first stored. |
| PluginRegistry.AddDefinitionsKeys | test/unit/plugin/PluginManager.spec.ts:105-127 | The defines add exactly the keys `pluginName/defineName`; every other definition is kept. |
| PluginRegistry.AddDefinitionsValues | test/unit/plugin/PluginManager.spec.ts:118-126 | Under `pluginName/defineName` sits that define's own Definition, schema included; for a repeated name, the last entry's. |
| PluginRegistry.AddDefinitionsFrame | test/unit/plugin/PluginManager.spec.ts:105-127 | A key that no define names keeps its old definition. |
| PluginRegistry.RegisterRecords | test/unit/plugin/PluginManager.spec.ts:84-103 | Registration appends the plugin and makes it reachable by the requested url. Other url entries are kept, and providers and the fetch log are untouched. |
| PluginRegistry.ProvideList | src/lib/plugin/model/PluginDataModel.ts:31-33 | Each flattened provide, from a single value or an array, is attributed to the providing plugin. |
| PluginRegistry.ProvideListMembers | src/lib/plugin/model/PluginDataModel.ts:31-33 | Membership in both directions: a provide is in the flattened list exactly when it is attributed to the providing plugin and some entry with its key offers its data, either as the single value or as an element of the array. Order and multiplicity are stated by the next two rows. |
| PluginRegistry.ProvideListAppend | src/lib/plugin/model/PluginDataModel.ts:31-33 | Flattening keeps entry order: the provides of `a + b` are those of `a` followed by those of `b`. |
| PluginRegistry.ProvideListEntry | src/lib/plugin/model/PluginDataModel.ts:31-33 | One entry: a single value gives exactly one provide; an array gives one provide per element, in array order. Each is aimed at the entry's key. |
| PluginRegistry.PutProviderStores | test/unit/plugin/PluginManager.spec.ts:171-175 | After storing, getProvider returns the provider under its name and every other key is unchanged. A new name joins the insertion order, and nothing else changes. |
| PluginRegistry.AddProviders | test/unit/plugin/PluginManager.spec.ts:129-194 | Adding providers changes only providers and their order, and only by adding keys. |
| PluginRegistry.Load | test/unit/plugin/PluginManager.spec.ts:82-260 | A load never removes a url entry. |
| PluginRegistry.Commit | test/unit/plugin/PluginManager.spec.ts:210-232 | Loading dependencies and then providers never removes a url entry. |
| PluginRegistry.LoadDeps | test/unit/plugin/PluginManager.spec.ts:210-232 | Loading a dependency list never removes a url entry. |
| PluginRegistry.LoadGrows | test/unit/plugin/PluginManager.spec.ts:82-260 | A load only extends the plugins, roots, url entries, definition and provider keys, and fetch log. A dependency load adds no root; this is the model's choice, since the tests show roots only after a direct load. |
| PluginRegistry.CommitGrows | test/unit/plugin/PluginManager.spec.ts:210-232 | The same for the dependencies and provides of one plugin. By the model's choice noted for LoadGrows, they add no root. |
| PluginRegistry.LoadDepsGrows | test/unit/plugin/PluginManager.spec.ts:210-232 | The same for a dependency list. |
| PluginRegistry.ClearedIsValid | test/unit/plugin/PluginManager.spec.ts:65-79 | The empty registry satisfies the invariant and lists no providers. |
| PluginRegistry.RegisterKeepsValid | test/unit/plugin/PluginManager.spec.ts:234-247 | Registering a plugin whose name and url are free keeps names and urls unique and keeps the invariant. |
| PluginRegistry.PutProviderKeepsValid | test/unit/plugin/PluginManager.spec.ts:171-175 | Storing a provider keyed under an existing definition keeps the invariant and the order listing each key once. |
| PluginRegistry.AddProvidersKeepsValid | test/unit/plugin/PluginManager.spec.ts:129-194 | Adding providers keeps the invariant. |
| PluginRegistry.LoadKeepsValid | test/unit/plugin/PluginManager.spec.ts:82-260 | Every load keeps the invariant: unique names and urls, definitions under their qualified names, providers under `definition/provideName` of an existing definition. |
| PluginRegistry.CommitKeepsValid | test/unit/plugin/PluginManager.spec.ts:210-232 | The same for the dependencies and provides of one plugin. |
| PluginRegistry.LoadDepsKeepsValid | test/unit/plugin/PluginManager.spec.ts:210-232 | The same for a dependency list. |
| PluginRegistry.UndefinedProvidesAreDropped | test/unit/plugin/PluginManager.spec.ts:178-194 | Provides whose target definition is missing change nothing and raise no failure. |
| PluginRegistry.AddProvidersFails | test/unit/plugin/PluginManager.spec.ts:129-194 | Adding providers ends normally or with a schema failure. It fails exactly when some provide with an existing target is rejected by its schema. |
| PluginRegistry.ResolvedKey | test/unit/plugin/PluginManager.spec.ts:171-175 | In a valid registry a provider built for target `define` is keyed `define/provideName`, names that definition, and can be stored validly. |
| PluginRegistry.AddProvidersFrame | test/unit/plugin/PluginManager.spec.ts:129-194 | A stored provider whose key no provide with an existing target shares is kept as it is. |
| PluginRegistry.AddProvidersValues | test/unit/plugin/PluginManager.spec.ts:166-175 | After a completed add, the provider under an accepted provide's key is the one built from it, unless a later provide overrides that key. |
| PluginRegistry.AddProvidersListed | test/unit/plugin/PluginManager.spec.ts:166-175 | After a completed add, each provide with an existing target was accepted. getProvider returns the provider built from it, and getProviders of its definition lists it, unless a later provide overrides that key. |
| PluginRegistry.AddProvidersKeys | test/unit/plugin/PluginManager.spec.ts:129-194 | After a completed add, every provide with an existing target has its `define/provideName` key, and every new key comes from an accepted provide. |
| PluginRegistry.ProvidersForComplete | test/unit/plugin/PluginManager.spec.ts:174 | In a valid registry, getProviders lists every stored provider of the definition and nothing else, each once, in the order their keys were first stored. |
| PluginRegistry.RegisterFetchesOnce | test/unit/plugin/PluginManager.spec.ts:94-95 | Fetching an unloaded url and registering its plugin appends exactly that url to the fetch log, which was not loaded before, and loses no url entry. |
| PluginRegistry.LoadFetchesUnloaded | test/unit/plugin/PluginManager.spec.ts:196-208 | A load, dependencies included, asks the fetcher only for urls that were not loaded when it started. |
| PluginRegistry.CommitFetchesUnloaded | test/unit/plugin/PluginManager.spec.ts:210-232 | The same for one plugin's dependencies and provides. |
| PluginRegistry.LoadDepsFetchesUnloaded | test/unit/plugin/PluginManager.spec.ts:210-232 | The same for a dependency list. |
| PluginRegistry.LoadedUrlIsNotFetched | test/unit/plugin/PluginManager.spec.ts:196-208 | A url already loaded is neither fetched nor changes anything. |
| PluginRegistry.FailedFetchIsReported | test/unit/plugin/PluginManager.spec.ts:47-56 | A failing fetch is logged once, registers nothing and is reported. |
| PluginRegistry.InvalidManifestIsDropped | test/unit/plugin/PluginManager.spec.ts:249-260 | A manifest with validator errors is fetched once and dropped, without failure. |
| PluginRegistry.DuplicatePluginIsDropped | test/unit/plugin/PluginManager.spec.ts:234-247 | A manifest whose name or url is taken is fetched once and dropped. |
| PluginRegistry.FindPluginUnique | test/unit/plugin/PluginManager.spec.ts:101 | With unique names, getPlugin by a plugin's name returns that plugin. |
| PluginRegistry.NewPluginIsRegistered | test/unit/plugin/PluginManager.spec.ts:84-127 | A new valid manifest is appended to the plugins and found by name and by the requested url. A direct load makes it the one new root. A dependency load adds no root, which is the model's choice. Its url is fetched exactly once during the load, and each define gets `pluginName/defineName`. When the load completes, each url in its `dependencies` is registered or was handed to the fetcher. |
| PluginRegistry.LoadRequestsUrl | test/unit/plugin/PluginManager.spec.ts:210-232 | After a load, its url is registered or is in the fetch log. |
| PluginRegistry.LoadDepsRequestsAll | test/unit/plugin/PluginManager.spec.ts:210-232 | When a dependency list completes, every url in it is registered or is in the fetch log. |
| PluginRegistry.LoadDepsAdvance | test/unit/plugin/PluginManager.spec.ts:210-232 | The loop form of the dependency loader: loading the next url either ends the list with its failure or leaves the rest of the list to do. The registered urls only grow. |
| PluginRegistry.LoadCommits | test/unit/plugin/PluginManager.spec.ts:84-103 | For a new valid manifest, the load is: log the fetch, register the plugin, then its dependencies and provides. |
| PluginRegistry.StandaloneLoad | test/unit/plugin/PluginManager.spec.ts:84-194 | Without dependencies, that is registration followed by adding the provides. |
| PluginManagers.PluginManager.constructor | test/unit/plugin/PluginManager.spec.ts:69-80 | A new manager holds no plugins, roots, definitions or providers, and is valid. |
| PluginManagers.PluginManager.Reset | test/unit/plugin/PluginManager.spec.ts:65-67 | reset clears plugins, roots, url entries, definitions and providers and keeps the fetch log. |
| PluginManagers.PluginManager.GetPlugin | test/unit/plugin/PluginManager.spec.ts:101 | Returns a plugin exactly when one with that name is registered. |
| PluginManagers.PluginManager.GetPluginByUrl | test/unit/plugin/PluginManager.spec.ts:102 | Returns the plugin loaded from that requested url, if any. |
| PluginManagers.PluginManager.GetDefinition | test/unit/plugin/PluginManager.spec.ts:126 | Returns the definition stored under that key, if any. |
| PluginManagers.PluginManager.GetProvider | test/unit/plugin/PluginManager.spec.ts:175 | Returns the provider stored under that key, if any. |
| PluginManagers.PluginManager.GetProviders | test/unit/plugin/PluginManager.spec.ts:174 | Lists only providers of the definition, and every one of them whose key is in the insertion order. In a valid manager, each appears once, in insertion order. |
| PluginManagers.PluginManager.LoadPlugin | test/unit/plugin/PluginManager.spec.ts:82-260 | The fields and outcome are those of `Load` for a root load, and the invariant is preserved. |
| PluginManagers.PluginManager.LoadFrom | test/unit/plugin/PluginManager.spec.ts:82-260 | Updating the fields in place, step by step, gives exactly `Load`. |
| PluginManagers.PluginManager.RegisterPlugin | test/unit/plugin/PluginManager.spec.ts:105-127 | The loop over the defines gives exactly `Register`. |
| PluginManagers.PluginManager.CommitPlugin | test/unit/plugin/PluginManager.spec.ts:210-232 | Gives exactly `Commit`. |
| PluginManagers.PluginManager.LoadDependencies | test/unit/plugin/PluginManager.spec.ts:210-232 | The loop over the dependency urls gives exactly `LoadDeps`. |
| PluginManagers.PluginManager.AddPluginProviders | test/unit/plugin/PluginManager.spec.ts:129-194 | The loop over the provides gives exactly `AddProviders`. |
| PluginScenarios.EmptyProviderScenario | test/unit/plugin/object/PluginProvider.spec.ts:11-34 | The test's empty definition yields plugin `providePlugin`, definition `definitionPlugin/definitionName`, name `definitionPlugin/definitionName/provideName`, with no attributes and no elements. |
| PluginScenarios.ValidProviderAttributes | test/unit/plugin/object/PluginProvider.spec.ts:36-77 | The schema declares `att1` and `att2`, and the provider's attributes are exactly {att1: value1}. |
| PluginScenarios.ValidProviderElements | test/unit/plugin/object/PluginProvider.spec.ts:79-85 | The elements are exactly {element1: `pluginUrlelement1Url`, iframe}. |
| PluginScenarios.ValidProviderScenario | test/unit/plugin/object/PluginProvider.spec.ts:36-87 | attributes are exactly {att1: value1}. element1 resolves to `pluginUrlelement1Url` with type iframe. getAttribute and getElement return them. |
| PluginScenarios.MismatchScenarios | test/unit/plugin/object/PluginProvider.spec.ts:89-159 | Both type-mismatch cases of the tests fail. |
| PluginScenarios.MissingScenarios | test/unit/plugin/object/PluginProvider.spec.ts:161-223 | The missing-attribute and missing-element cases of the tests fail. |
| PluginScenarios.BasicPluginScenario | test/unit/plugin/PluginManager.spec.ts:84-103 | One fetch of "url", one plugin, which is the one root, found by name and by "url" but not by its own url. |
| PluginScenarios.SameUrlTwiceScenario | test/unit/plugin/PluginManager.spec.ts:196-208 | The second load of "url" changes nothing; one fetch in all. |
| PluginScenarios.SameNameScenario | test/unit/plugin/PluginManager.spec.ts:234-247 | Two fetches, one plugin. |
| PluginScenarios.InvalidDataScenario | test/unit/plugin/PluginManager.spec.ts:249-260 | The manifest without url yields [URL_MISSING]: one fetch, nothing registered, normal end. |
| PluginScenarios.DependencyScenario | test/unit/plugin/PluginManager.spec.ts:210-232 | Two fetches ("url", then "depUrl") and two plugins, as the test asserts. The model also gives one root, the directly loaded plugin, because a dependency adds no root in the model. |
| PluginScenarios.UndefinedProvideScenario | test/unit/plugin/PluginManager.spec.ts:178-194 | The provide for the missing `define1` registers no provider and does not fail. |
| PluginScenarios.DefinesScenario | test/unit/plugin/PluginManager.spec.ts:105-127 | definitions is exactly {`pluginName/define1`: the definition}, and getDefinition returns it. |
| PluginScenarios.ProvidesScenario | test/unit/plugin/PluginManager.spec.ts:129-176 | Two fetches. providers is exactly {`pluginName/define1/child`: the provider}. getProvider and getProviders return it. |

## Left out

- Asynchrony. `loadPlugin` is a sequential recursive method, so interleavings of concurrent loads are not modelled.
- The network. `helpers.fetchPlugin` and `global.fetch` are replaced by the finite map `server`, and a rejected fetch is a url outside it. The tests replace the fetcher's result between two loads; the model gives each load its own map.
- Logging. It has no behaviour.
- The React demo component. It is UI only.
- The `properties` field of a define. Nothing gives it behaviour.
- Attribute type specs other than "string" and "string[]". Nothing defines their behaviour.
- JSON numbers. They are modelled as integers, which only matters for truthiness: 0 is falsy.
- `defines` as an array, or as an object that is not a map of define records. It passes the shape check, as in the source (`typeof` is "object"), but the model registers no definitions for it, because what the manager then does is not shown.
- The order of keys. A JavaScript object's key order is taken to be the order of the manifest's `defines` and `provides` entries.
- Roots of dependency loads. The tests show `rootPlugins` only after a single direct load. The model adds only directly loaded plugins to `rootPlugins`, and none loaded as dependencies.
- The fetch log. It models the spy on the fetcher; `reset` does not clear it.
- PluginProviders.NewProvider: reports the set of all schema violations, where the constructor throws at the first. Only success or failure is observable.
- PluginManagers.PluginManager.LoadFrom: passes the providing plugin's manifest url to provider construction. The manager test passes the plugin name there, but that provide has no elements, so the argument is unobservable. No url-resolution property is claimed at the manager level.
- A schema violation during a load ends that load as a failure (`SchemaFailure`). Registrations made before it are kept, as a thrown error would leave them.
- The source of PluginManager, PluginProvider, PluginDefine, PluginProvide and Plugin is not part of this model. Their behaviour follows the unit tests and the manifest data model where those fix it. The lines below name each of the model's own choices where the tests say nothing.
- A manifest whose own url alone is already taken, under a new name, is dropped like a duplicate name (`IsRegistered`). This is the model's choice; the tests only repeat name and url together.
- One failing dependency ends the whole load. `LoadDeps` skips the remaining dependencies, and `Commit` then skips the parent's provides. This is the model's choice; loads that run concurrently could still load the later dependencies.
- Provider construction keeps only the attributes and elements the definition declares, and silently drops the rest (`NewProvider`). This is the model's choice; no test supplies an undeclared key.
- A later provide with the same `define/provideName` key replaces the earlier provider (`PutProvider`, `AddProvidersValues`). This is the model's choice; no test repeats a key.
- Only registered urls are skipped. A url whose manifest was invalid or a duplicate is fetched again by a later load (`Load`). This is the model's choice; no test loads such a url twice.

=== FILE: plugin_data.dfy ===
/**
 * The plugin manifest as it arrives over the wire, the messages of the shape
 * validator, and the validator itself (PluginDataValidator.checkPluginData).
 *
 * The top-level fields that the validator inspects (`name`, `url`, `defines`)
 * may hold any JSON value, since the manifest is untrusted; the nested records
 * follow the declared wire interfaces.
 */
module PluginDataModel {

  /** A parsed JSON value as JavaScript sees it; `Undefined` is an absent property. */
  datatype Json =
    | Undefined
    | Null
    | Bool(b: bool)
    | Num(n: int)
    | Str(s: string)
    | Arr(items: seq<Json>)
    | Obj(fields: map<string, Json>)

  /** JavaScript truthiness: `undefined`, `null`, `false`, `0` and `""` are falsy. */
  predicate Truthy(v: Json) {
    match v
    case Undefined => false
    case Null => false
    case Bool(b) => b
    case Num(n) => n != 0
    case Str(s) => s != ""
    case Arr(_) => true
    case Obj(_) => true
  }

  /** JavaScript `typeof`; arrays and `null` report "object". */
  function TypeOf(v: Json): string {
    match v
    case Undefined => "undefined"
    case Null => "object"
    case Bool(_) => "boolean"
    case Num(_) => "number"
    case Str(_) => "string"
    case Arr(_) => "object"
    case Obj(_) => "object"
  }

  /** The attribute type specs a definition may declare: "string" and "string[]". */
  datatype TypeSpec = StringType | StringArrayType

  /** One entry of a manifest's `defines` block: attribute schema (keys may end in '?') and element names. */
  datatype PluginDataDefine = PluginDataDefine(attributes: map<string, TypeSpec>, elements: set<string>)

  datatype ElementType = IFrame | WebComponent | Component

  datatype PluginDataProvideElement = PluginDataProvideElement(url: string, elementType: ElementType)

  /** A provided attribute value: a string or an array of strings. */
  datatype AttributeValue = Text(text: string) | TextArray(texts: seq<string>)

  datatype PluginDataProvide = PluginDataProvide(
    name: string,
    attributes: map<string, AttributeValue>,
    elements: map<string, PluginDataProvideElement>)

  /** The value under one key of `provides`: a single provide or an array of them. */
  datatype ProvideValue = Single(provide: PluginDataProvide) | Many(list: seq<PluginDataProvide>)

  /**
   * The `defines` field: an object of define records, in key order, or any
   * other JSON value (`Undefined` when the field is absent). An object whose
   * values are all define records is always `DefinesObject`; `DefinesOther(Obj(_))`
   * and `DefinesOther(Arr(_))` stand only for objects and arrays that are not
   * of that form.
   */
  datatype Defines =
    | DefinesObject(entries: seq<(string, PluginDataDefine)>)
    | DefinesOther(value: Json)

  /** A raw manifest. An absent `dependencies` or `provides` is the empty sequence. */
  datatype PluginData = PluginData(
    name: Json,
    url: Json,
    dependencies: seq<string>,
    defines: Defines,
    provideEntries: seq<(string, ProvideValue)>)

  const DATA_MISSING := "plugin data is undefined"
  const NAME_MISSING := "plugin \"name\" is missing"
  const NAME_TYPE := "plugin \"name\" must be a string"
  const URL_MISSING := "plugin \"url\" is missing"
  const URL_TYPE := "plugin \"url\" must be a string"
  const DEFINES_TYPE := "plugin \"defines\" must be an object"

  /** Every message the validator can emit, in the order in which it emits them. */
  const ShapeErrorOrder: seq<string> := [NAME_MISSING, NAME_TYPE, URL_MISSING, URL_TYPE, DEFINES_TYPE]

  predicate DefinesTruthy(defines: Defines) {
    match defines
    case DefinesObject(_) => true
    case DefinesOther(v) => Truthy(v)
  }

  function DefinesTypeOf(defines: Defines): string {
    match defines
    case DefinesObject(_) => "object"
    case DefinesOther(v) => TypeOf(v)
  }

  /** A value the validator accepts for `name` or `url`: a non-empty string. */
  predicate IsNonEmptyString(v: Json) {
    v.Str? && v.s != ""
  }

  /** What the validator accepts: name and url non-empty strings, `defines` absent, falsy or an object. */
  predicate Accepted(data: PluginData) {
    IsNonEmptyString(data.name) && IsNonEmptyString(data.url)
    && (DefinesTruthy(data.defines) ==> DefinesTypeOf(data.defines) == "object")
  }

  /** The validator's checks, one per message it can emit. */
  datatype Check = NameMissing | NameType | UrlMissing | UrlType | DefinesType

  /** The checks in the order in which the validator runs them. */
  const CheckOrder: seq<Check> := [NameMissing, NameType, UrlMissing, UrlType, DefinesType]

  function Message(check: Check): string {
    match check
    case NameMissing => NAME_MISSING
    case NameType => NAME_TYPE
    case UrlMissing => URL_MISSING
    case UrlType => URL_TYPE
    case DefinesType => DEFINES_TYPE
  }

  /** Whether `data` exhibits the violation that `check` reports. */
  predicate Fails(data: PluginData, check: Check) {
    match check
    case NameMissing => !Truthy(data.name)
    case NameType => Truthy(data.name) && TypeOf(data.name) != "string"
    case UrlMissing => !Truthy(data.url)
    case UrlType => Truthy(data.url) && TypeOf(data.url) != "string"
    case DefinesType => DefinesTruthy(data.defines) && DefinesTypeOf(data.defines) != "object"
  }

  /** The messages of the `checks` that `data` fails, in the order of `checks`. */
  function FailedAmong(data: PluginData, checks: seq<Check>): seq<string> {
    if checks == [] then []
    else (if Fails(data, checks[0]) then [Message(checks[0])] else []) + FailedAmong(data, checks[1..])
  }

  /** Reference definition of the validator's result: the messages of the failed checks, in emission order. */
  function ShapeErrors(data: PluginData): seq<string> {
    FailedAmong(data, CheckOrder)
  }

  /** The position of a message in the emission order (5 for anything else). */
  function Rank(message: string): nat {
    if message == NAME_MISSING then 0
    else if message == NAME_TYPE then 1
    else if message == URL_MISSING then 2
    else if message == URL_TYPE then 3
    else if message == DEFINES_TYPE then 4
    else 5
  }

  // ---------------------------------------------------------------------------
  // The validator as written

  /** checkPluginDataDefine and the other per-record checkers: hook points that accept everything. */
  function CheckPluginDataDefine(define: PluginDataDefine): (errors: seq<string>)
    ensures errors == []
  {
    []
  }

  /** checkPluginDataProvides and the per-provide checkers: likewise accept everything. */
  function CheckPluginDataProvides(entries: seq<(string, ProvideValue)>): (errors: seq<string>)
    ensures errors == []
  {
    []
  }

  /** The `reduce` over the define records, concatenating each record's errors. */
  function ReduceDefineErrors(entries: seq<(string, PluginDataDefine)>): seq<string> {
    if entries == [] then []
    else ReduceDefineErrors(entries[..|entries| - 1]) + CheckPluginDataDefine(entries[|entries| - 1].1)
  }

  /**
   * checkPluginDataDefines, called only on a truthy `defines`: a non-object
   * gives exactly [DEFINES_TYPE]; an object gives the concatenated per-define
   * errors. A JSON object or array outside the define-record form has no
   * define record whose check could fail.
   */
  function CheckPluginDataDefines(defines: Defines): (errors: seq<string>)
    requires DefinesTruthy(defines)
    ensures DefinesTypeOf(defines) != "object" ==> errors == [DEFINES_TYPE]
    ensures DefinesTypeOf(defines) == "object" ==> errors == []
  {
    match defines
    case DefinesObject(entries) =>
      DefinesObjectHasNoErrors(entries);
      ReduceDefineErrors(entries)
    case DefinesOther(v) =>
      if TypeOf(v) != "object" then [DEFINES_TYPE] else []
  }

  /** checkPluginData: builds the error list by successive pushes. */
  method CheckPluginData(data: PluginData) returns (errors: seq<string>)
    ensures errors == ShapeErrors(data)
  {
    errors := [];
    if !Truthy(data.name) {
      errors := errors + [NAME_MISSING];
    } else if TypeOf(data.name) != "string" {
      errors := errors + [NAME_TYPE];
    }
    assert errors == NameErrors(data);
    if !Truthy(data.url) {
      errors := errors + [URL_MISSING];
    } else if TypeOf(data.url) != "string" {
      errors := errors + [URL_TYPE];
    }
    assert errors == NameErrors(data) + UrlErrors(data);
    if DefinesTruthy(data.defines) {
      errors := errors + CheckPluginDataDefines(data.defines);
    }
    // an absent `provides` is falsy and an object contributes what its stub returns: nothing either way
    errors := errors + CheckPluginDataProvides(data.provideEntries);
    ShapeErrorsUnfold(data);
    assert errors == NameErrors(data) + UrlErrors(data) + DefinesErrors(data);
  }

  // ---------------------------------------------------------------------------
  // Properties

  /** Every per-define check returns [], so an object `defines` contributes nothing. */
  lemma {:induction false} DefinesObjectHasNoErrors(entries: seq<(string, PluginDataDefine)>)
    ensures ReduceDefineErrors(entries) == []
  {
    if entries != [] {
      DefinesObjectHasNoErrors(entries[..|entries| - 1]);
    }
  }

  /** The messages about `name`: NAME_MISSING for a falsy value, otherwise NAME_TYPE for a non-string. */
  function NameErrors(data: PluginData): seq<string> {
    if !Truthy(data.name) then [NAME_MISSING] else if TypeOf(data.name) != "string" then [NAME_TYPE] else []
  }

  /** The messages about `url`, likewise. */
  function UrlErrors(data: PluginData): seq<string> {
    if !Truthy(data.url) then [URL_MISSING] else if TypeOf(data.url) != "string" then [URL_TYPE] else []
  }

  /** The message about `defines`: DEFINES_TYPE for a truthy non-object. */
  function DefinesErrors(data: PluginData): seq<string> {
    if DefinesTruthy(data.defines) && DefinesTypeOf(data.defines) != "object" then [DEFINES_TYPE] else []
  }

  /** Two checks at the head of `checks`, of which at most one can fail, contribute `part`. */
  lemma ExclusivePair(data: PluginData, checks: seq<Check>, part: seq<string>)
    requires |checks| >= 2 && !(Fails(data, checks[0]) && Fails(data, checks[1]))
    requires part == if Fails(data, checks[0]) then [Message(checks[0])]
                     else if Fails(data, checks[1]) then [Message(checks[1])] else []
    ensures FailedAmong(data, checks) == part + FailedAmong(data, checks[2..])
  {
    assert checks[1..][1..] == checks[2..];
  }

  /** The validator's result, field by field: name, url, defines. */
  lemma ShapeErrorsUnfold(data: PluginData)
    ensures ShapeErrors(data) == NameErrors(data) + (UrlErrors(data) + DefinesErrors(data))
  {
    var c := CheckOrder;
    assert c[4..] == [DefinesType];
    assert FailedAmong(data, c[4..]) == DefinesErrors(data);
    assert c[2..][2..] == c[4..];
    ExclusivePair(data, c[2..], UrlErrors(data));
    ExclusivePair(data, c, NameErrors(data));
  }

  /** A falsy `name` (absent, empty, ...) yields NAME_MISSING; NAME_TYPE only for a truthy non-string; never both. */
  lemma NameErrorsExclusive(data: PluginData)
    ensures NAME_MISSING in ShapeErrors(data) <==> !Truthy(data.name)
    ensures NAME_TYPE in ShapeErrors(data) <==> Truthy(data.name) && !data.name.Str?
    ensures !(NAME_MISSING in ShapeErrors(data) && NAME_TYPE in ShapeErrors(data))
  {
    ShapeErrorsUnfold(data);
  }

  /** The same exclusive pair for `url`. */
  lemma UrlErrorsExclusive(data: PluginData)
    ensures URL_MISSING in ShapeErrors(data) <==> !Truthy(data.url)
    ensures URL_TYPE in ShapeErrors(data) <==> Truthy(data.url) && !data.url.Str?
    ensures !(URL_MISSING in ShapeErrors(data) && URL_TYPE in ShapeErrors(data))
  {
    ShapeErrorsUnfold(data);
  }

  /** Errors come out name, url, defines, strictly in emission order, so there are at most three. */
  lemma {:induction false} ShapeErrorsOrdered(data: PluginData)
    ensures |ShapeErrors(data)| <= 3
    ensures forall i, j :: 0 <= i < j < |ShapeErrors(data)| ==> Rank(ShapeErrors(data)[i]) < Rank(ShapeErrors(data)[j])
    ensures forall m :: m in ShapeErrors(data) ==> m in ShapeErrorOrder && m != DATA_MISSING
  {
    ShapeErrorsUnfold(data);
  }

  /** A truthy non-object `defines` is reported as DEFINES_TYPE, and the defines check gives only that. */
  lemma DefinesNotObject(data: PluginData)
    requires DefinesTruthy(data.defines) && DefinesTypeOf(data.defines) != "object"
    ensures DEFINES_TYPE in ShapeErrors(data)
    ensures CheckPluginDataDefines(data.defines) == [DEFINES_TYPE]
  {
    ShapeErrorsUnfold(data);
  }

  /** `provides` never contributes: replacing it leaves the errors unchanged. */
  lemma ProvidesNeverReported(data: PluginData, entries: seq<(string, ProvideValue)>)
    ensures ShapeErrors(data.(provideEntries := entries)) == ShapeErrors(data)
    ensures CheckPluginDataProvides(entries) == []
  {
    ShapeErrorsUnfold(data);
    ShapeErrorsUnfold(data.(provideEntries := entries));
  }

  /**
   * A manifest is accepted exactly when name and url are non-empty strings
   * and `defines` is absent, falsy or an object.
   */
  lemma ShapeAccepted(data: PluginData)
    ensures ShapeErrors(data) == [] <==> Accepted(data)
  {
    ShapeErrorsUnfold(data);
  }
}

=== FILE: plugin_manager.dfy ===
/**
 * The PluginManager object: the registry's lists and maps as fields that
 * loadPlugin and reset update in place. Each method is proved to leave the
 * fields as the corresponding function of the registry value prescribes, so
 * every property proved about those functions holds of the object.
 */
module PluginManagers {
  import opened Wrappers
  import opened PluginDataModel
  import opened PluginProviders
  import opened PluginRegistry

  class PluginManager {
    var plugins: seq<Plugin>
    var rootPlugins: seq<Plugin>
    var urls: map<string, Plugin>
    var definitions: map<string, Definition>
    var providers: map<string, Provider>
    var providerOrder: seq<string>
    /** Every url handed to the fetcher, in order (what a spy on the fetcher records). */
    var fetched: seq<string>

    /** The fields as a registry value. */
    function State(): Registry
      reads this
    {
      Registry(plugins, rootPlugins, urls, definitions, providers, providerOrder, fetched)
    }

    /** A new manager holds nothing and has fetched nothing. */
    constructor ()
      ensures State() == Cleared([])
      ensures Valid(State())
    {
      plugins, rootPlugins, urls := [], [], map[];
      definitions, providers, providerOrder := map[], map[], [];
      fetched := [];
      ClearedIsValid([]);
    }

    /** reset: forgets every plugin, definition and provider. */
    method Reset()
      modifies this
      ensures State() == Cleared(old(fetched))
      ensures Valid(State())
    {
      plugins, rootPlugins, urls := [], [], map[];
      definitions, providers, providerOrder := map[], map[], [];
      ClearedIsValid(fetched);
    }

    /** getPlugin: the registered plugin with this name, if any. */
    function GetPlugin(name: string): (p: Option<Plugin>)
      reads this
      ensures p.Some? <==> exists i :: 0 <= i < |plugins| && plugins[i].name == name
      ensures p.Some? ==> p.value in plugins && p.value.name == name
    {
      FindPlugin(plugins, name)
    }

    /** getPluginByUrl: the plugin loaded from this requested url, if any. */
    function GetPluginByUrl(url: string): (p: Option<Plugin>)
      reads this
      ensures p.Some? <==> url in urls
      ensures p.Some? ==> p.value == urls[url]
    {
      PluginByUrl(State(), url)
    }

    /** getDefinition: the definition stored under `pluginName/defineName`, if any. */
    function GetDefinition(key: string): (d: Option<Definition>)
      reads this
      ensures d.Some? <==> key in definitions
      ensures d.Some? ==> d.value == definitions[key]
    {
      DefinitionByKey(State(), key)
    }

    /** getProvider: the provider stored under `definition/provideName`, if any. */
    function GetProvider(key: string): (p: Option<Provider>)
      reads this
      ensures p.Some? <==> key in providers
      ensures p.Some? ==> p.value == providers[key]
    {
      ProviderByKey(State(), key)
    }

    /** getProviders: the providers of a definition, each once, in the order their keys were first stored. */
    function GetProviders(definition: string): (ps: seq<Provider>)
      reads this
      ensures forall p :: p in ps ==> p.definition == definition && p in providers.Values
      ensures forall k :: k in providerOrder && k in providers && providers[k].definition == definition ==> providers[k] in ps
      ensures Valid(State()) ==> forall p :: p in ps ==> p.name in providerOrder
      ensures Valid(State()) ==>
        forall i, j :: 0 <= i < j < |ps| ==> IndexOf(providerOrder, ps[i].name) < IndexOf(providerOrder, ps[j].name)
    {
      FilterProvidersOrdered(providerOrder, providers, definition);
      ProvidersFor(State(), definition)
    }

    /** loadPlugin(url): loads the manifest served at `url`, as a root plugin, with its dependencies. */
    method LoadPlugin(server: map<string, PluginData>, url: string) returns (outcome: Outcome)
      modifies this
      ensures (State(), outcome) == Load(old(State()), server, url, true)
      ensures old(Valid(State())) ==> Valid(State())
    {
      ghost var before := State();
      outcome := LoadFrom(server, url, true);
      if Valid(before) {
        LoadKeepsValid(before, server, url, true);
      }
    }

    /** One load: a root load when `root`, a dependency load otherwise. */
    method LoadFrom(server: map<string, PluginData>, url: string, root: bool) returns (outcome: Outcome)
      modifies this
      ensures (State(), outcome) == Load(old(State()), server, url, root)
      decreases |server.Keys - urls.Keys|, 0
    {
      ghost var start := State();
      if url in urls {
        LoadedUrlIsNotFetched(start, server, url, root);
        return Done;
      }
      fetched := fetched + [url];
      if url !in server {
        FailedFetchIsReported(start, server, url, root);
        return TransportFailure(url);
      }
      var data := server[url];
      var errors := CheckPluginData(data);
      if errors != [] {
        InvalidManifestIsDropped(start, server, url, root);
        return Done;
      }
      ShapeAccepted(data);
      var plugin := PluginOf(data);
      if IsRegistered(State(), plugin.name, plugin.url) {
        DuplicatePluginIsDropped(start, server, url, root);
        return Done;
      }
      ghost var afterFetch := State();
      RegisterShrinksUnloaded(afterFetch, server, url, plugin, root);
      LoadCommits(start, server, url, root);
      RegisterPlugin(url, plugin, root);
      assert State() == Register(afterFetch, url, plugin, root);
      outcome := CommitPlugin(server, plugin, ProvideList(plugin.name, data.provideEntries));
    }

    /** Records the plugin under the requested url and stores its definitions. */
    method RegisterPlugin(url: string, plugin: Plugin, root: bool)
      modifies this
      ensures State() == Register(old(State()), url, plugin, root)
    {
      plugins := plugins + [plugin];
      if root {
        rootPlugins := rootPlugins + [plugin];
      }
      urls := urls[url := plugin];
      var entries := DefineEntries(plugin.defines);
      ghost var initial := definitions;
      var i := 0;
      while i < |entries|
        invariant 0 <= i <= |entries|
        invariant AddDefinitions(definitions, plugin.name, entries[i..]) == AddDefinitions(initial, plugin.name, entries)
        invariant plugins == old(plugins) + [plugin] && urls == old(urls)[url := plugin]
        invariant rootPlugins == if root then old(rootPlugins) + [plugin] else old(rootPlugins)
        invariant providers == old(providers) && providerOrder == old(providerOrder) && fetched == old(fetched)
      {
        var definition := DefinitionOf(plugin.name, entries[i]);
        definitions := definitions[definition.QualifiedName() := definition];
        i := i + 1;
      }
    }

    /** After registration: the dependencies, then the provides. */
    method CommitPlugin(server: map<string, PluginData>, plugin: Plugin, pending: seq<Provide>) returns (outcome: Outcome)
      modifies this
      ensures (State(), outcome) == Commit(old(State()), server, plugin, pending)
      decreases |server.Keys - urls.Keys|, 2
    {
      outcome := LoadDependencies(server, plugin.dependencies);
      if outcome != Done {
        return;
      }
      outcome := AddPluginProviders(plugin.url, pending);
    }

    /** Loads each dependency url in turn, stopping at the first failure. */
    method LoadDependencies(server: map<string, PluginData>, deps: seq<string>) returns (outcome: Outcome)
      modifies this
      ensures (State(), outcome) == LoadDeps(old(State()), server, deps)
      decreases |server.Keys - urls.Keys|, 1
    {
      var j := 0;
      while j < |deps|
        invariant 0 <= j <= |deps|
        invariant old(urls).Keys <= urls.Keys
        invariant LoadDeps(State(), server, deps[j..]) == LoadDeps(old(State()), server, deps)
      {
        ghost var before := State();
        NoMoreUnloaded(server.Keys, old(urls).Keys, urls.Keys);
        outcome := LoadFrom(server, deps[j], false);
        LoadDepsAdvance(before, server, deps, j, State(), outcome);
        if outcome != Done {
          return;
        }
        j := j + 1;
      }
      assert deps[j..] == [];
      return Done;
    }

    /** Builds a provider for each provide whose target definition exists; a schema violation ends the load. */
    method AddPluginProviders(pluginUrl: string, pending: seq<Provide>) returns (outcome: Outcome)
      modifies this
      ensures (State(), outcome) == AddProviders(old(State()), pluginUrl, pending)
    {
      var k := 0;
      while k < |pending|
        invariant 0 <= k <= |pending|
        invariant AddProviders(State(), pluginUrl, pending[k..]) == AddProviders(old(State()), pluginUrl, pending)
      {
        var provide := pending[k];
        assert pending[k..][0] == provide && pending[k..][1..] == pending[k + 1..];
        if provide.define in definitions {
          var built := NewProvider(pluginUrl, definitions[provide.define], provide);
          if built.Failure? {
            return SchemaFailure(ProvideKey(provide), built.error);
          }
          var provider := built.value;
          if provider.name !in providers {
            providerOrder := providerOrder + [provider.name];
          }
          providers := providers[provider.name := provider];
        }
        k := k + 1;
      }
      return Done;
    }
  }
}

=== FILE: plugin_provider.dfy ===
/**
 * Definitions (PluginDefine), provides (PluginProvide) and the validated
 * providers built from them (PluginProvider): the schema check of attributes
 * and elements and the resolution of element urls against the providing
 * plugin's url.
 */
module PluginProviders {
  import opened Wrappers
  import opened PluginDataModel

  /** `prefix/name`: how definitions and providers are keyed. */
  function Qualify(prefix: string, name: string): string {
    prefix + "/" + name
  }

  /** `key` is `prefix` followed by a slash and some further name. */
  predicate IsQualifiedBy(prefix: string, key: string) {
    |prefix| < |key| && key[..|prefix|] == prefix && key[|prefix|] == '/'
  }

  /** An extension point `name` declared by plugin `plugin`, with its schema. */
  datatype Definition = Definition(plugin: string, name: string, data: PluginDataDefine) {
    function QualifiedName(): string {
      Qualify(plugin, name)
    }
  }

  /** A raw claim, by plugin `plugin`, to implement the definition keyed `define`. */
  datatype Provide = Provide(plugin: string, define: string, data: PluginDataProvide)

  datatype ProviderElement = ProviderElement(url: string, elementType: ElementType)

  /** A provide validated against its definition, with element urls resolved. */
  datatype Provider = Provider(
    plugin: string,
    definition: string,
    name: string,
    attributes: map<string, AttributeValue>,
    elements: map<string, ProviderElement>)
  {
    /** getAttribute: the value supplied for a declared attribute, if any. */
    function GetAttribute(attribute: string): (v: Option<AttributeValue>)
      ensures v.Some? <==> attribute in attributes
      ensures v.Some? ==> v.value == attributes[attribute]
    {
      if attribute in attributes then Some(attributes[attribute]) else None
    }

    /** getElement: the resolved element of this name, if any. */
    function GetElement(element: string): (e: Option<ProviderElement>)
      ensures e.Some? <==> element in elements
      ensures e.Some? ==> e.value == elements[element]
    {
      if element in elements then Some(elements[element]) else None
    }
  }

  /** Why a provide does not satisfy its definition's schema. */
  datatype SchemaError =
    | MissingAttribute(attribute: string)
    | AttributeTypeMismatch(attribute: string)
    | MissingElement(element: string)

  /** A schema key ending in '?' declares an optional attribute. */
  predicate IsOptional(key: string) {
    |key| > 0 && key[|key| - 1] == '?'
  }

  /** The attribute a schema key declares: the key without its optional marker. */
  function AttributeName(key: string): (name: string)
    ensures IsOptional(key) ==> key == name + "?"
    ensures !IsOptional(key) ==> name == key
  {
    if IsOptional(key) then key[..|key| - 1] else key
  }

  /** "string" takes a single string, "string[]" an array of strings. */
  predicate Conforms(spec: TypeSpec, value: AttributeValue) {
    match spec
    case StringType => value.Text?
    case StringArrayType => value.TextArray?
  }

  /** The attribute names a schema declares. */
  function DeclaredAttributes(schema: map<string, TypeSpec>): set<string> {
    set key | key in schema :: AttributeName(key)
  }

  function AttributeViolations(schema: map<string, TypeSpec>, given: map<string, AttributeValue>): set<SchemaError> {
    (set key | key in schema && AttributeName(key) !in given && !IsOptional(key) :: MissingAttribute(AttributeName(key)))
    + (set key | key in schema && AttributeName(key) in given && !Conforms(schema[key], given[AttributeName(key)])
         :: AttributeTypeMismatch(AttributeName(key)))
  }

  function ElementViolations(declared: set<string>, given: map<string, PluginDataProvideElement>): set<SchemaError> {
    set element | element in declared && element !in given :: MissingElement(element)
  }

  /** A provided element, its url resolved against the providing plugin's url. */
  function ResolveElement(pluginUrl: string, element: PluginDataProvideElement): ProviderElement {
    ProviderElement(pluginUrl + element.url, element.elementType)
  }

  /**
   * new PluginProvider(pluginUrl, definition, provide): either a provider, or
   * the violations of the definition's schema (the constructor throws).
   */
  function NewProvider(pluginUrl: string, definition: Definition, provide: Provide): (r: Result<Provider, set<SchemaError>>)
    ensures r.Failure? ==> r.error != {}
  {
    var schema := definition.data;
    var given := provide.data;
    var violations := AttributeViolations(schema.attributes, given.attributes) + ElementViolations(schema.elements, given.elements);
    if violations != {} then
      Failure(violations)
    else
      Success(Provider(
        provide.plugin,
        definition.QualifiedName(),
        Qualify(definition.QualifiedName(), given.name),
        map name | name in DeclaredAttributes(schema.attributes) && name in given.attributes :: given.attributes[name],
        map element | element in schema.elements && element in given.elements
          :: ResolveElement(pluginUrl, given.elements[element])))
  }

  // ---------------------------------------------------------------------------
  // Properties

  /** What the schema demands of a provide, stated key by key. */
  predicate SatisfiesSchema(schema: PluginDataDefine, given: PluginDataProvide) {
    && (forall key :: key in schema.attributes ==> IsOptional(key) || AttributeName(key) in given.attributes)
    && (forall key :: key in schema.attributes && AttributeName(key) in given.attributes
          ==> Conforms(schema.attributes[key], given.attributes[AttributeName(key)]))
    && (forall element :: element in schema.elements ==> element in given.elements)
  }

  /** Construction succeeds exactly when the provide satisfies the schema. */
  lemma ProviderSucceedsIff(pluginUrl: string, definition: Definition, provide: Provide)
    ensures NewProvider(pluginUrl, definition, provide).Success? <==> SatisfiesSchema(definition.data, provide.data)
  {
    var schema, given := definition.data, provide.data;
    if !SatisfiesSchema(schema, given) {
      if key :| key in schema.attributes && !IsOptional(key) && AttributeName(key) !in given.attributes {
        assert MissingAttribute(AttributeName(key)) in AttributeViolations(schema.attributes, given.attributes);
      } else if key :| key in schema.attributes && AttributeName(key) in given.attributes
                      && !Conforms(schema.attributes[key], given.attributes[AttributeName(key)]) {
        assert AttributeTypeMismatch(AttributeName(key)) in AttributeViolations(schema.attributes, given.attributes);
      } else {
        var element :| element in schema.elements && element !in given.elements;
        assert MissingElement(element) in ElementViolations(schema.elements, given.elements);
      }
    }
  }

  /**
   * A constructed provider: keyed `definition/provideName`, attributes are the
   * declared ones the provide supplies, copied unchanged, and the elements are
   * exactly the declared ones, each url prefixed by the plugin url.
   */
  lemma ProviderResolved(pluginUrl: string, definition: Definition, provide: Provide)
    requires NewProvider(pluginUrl, definition, provide).Success?
    ensures var p := NewProvider(pluginUrl, definition, provide).value;
      && p.plugin == provide.plugin
      && p.definition == Qualify(definition.plugin, definition.name)
      && p.name == Qualify(p.definition, provide.data.name)
      && p.attributes.Keys == DeclaredAttributes(definition.data.attributes) * provide.data.attributes.Keys
      && (forall a :: a in p.attributes ==> p.attributes[a] == provide.data.attributes[a])
      && p.elements.Keys == definition.data.elements
      && (forall e :: e in p.elements ==>
            p.elements[e].url == pluginUrl + provide.data.elements[e].url
            && p.elements[e].elementType == provide.data.elements[e].elementType)
  {
    ProviderSucceedsIff(pluginUrl, definition, provide);
  }

  /** A provider's key splits back into its definition's key and the provide's name. */
  lemma {:induction false} QualifySplits(prefix: string, name: string)
    ensures IsQualifiedBy(prefix, Qualify(prefix, name))
    ensures Qualify(prefix, name)[|prefix| + 1..] == name
  {
    var key := Qualify(prefix, name);
    assert key == prefix + ("/" + name);
    assert key[..|prefix|] == prefix;
    assert key[|prefix| + 1..] == name;
  }

  /** An empty definition accepts any provide and yields no attributes and no elements. */
  lemma EmptyDefinitionProvider(pluginUrl: string, definition: Definition, provide: Provide)
    requires definition.data == PluginDataDefine(map[], {})
    ensures NewProvider(pluginUrl, definition, provide) == Success(Provider(
      provide.plugin,
      Qualify(definition.plugin, definition.name),
      Qualify(Qualify(definition.plugin, definition.name), provide.data.name),
      map[],
      map[]))
  {
    ProviderSucceedsIff(pluginUrl, definition, provide);
    var p := NewProvider(pluginUrl, definition, provide).value;
    assert DeclaredAttributes(map[]) == {};
    assert p.attributes == map[];
  }

  /** A declared attribute of the other type fails, in either direction. */
  lemma AttributeTypeMismatchFails(pluginUrl: string, definition: Definition, provide: Provide, key: string)
    requires key in definition.data.attributes && AttributeName(key) in provide.data.attributes
    requires !Conforms(definition.data.attributes[key], provide.data.attributes[AttributeName(key)])
    ensures NewProvider(pluginUrl, definition, provide).Failure?
    ensures AttributeTypeMismatch(AttributeName(key)) in NewProvider(pluginUrl, definition, provide).error
  {
    assert AttributeTypeMismatch(AttributeName(key)) in AttributeViolations(definition.data.attributes, provide.data.attributes);
  }

  /** A declared attribute without the optional marker must be supplied. */
  lemma MissingMandatoryAttributeFails(pluginUrl: string, definition: Definition, provide: Provide, key: string)
    requires key in definition.data.attributes && !IsOptional(key) && key !in provide.data.attributes
    ensures NewProvider(pluginUrl, definition, provide).Failure?
    ensures MissingAttribute(key) in NewProvider(pluginUrl, definition, provide).error
  {
    assert MissingAttribute(AttributeName(key)) in AttributeViolations(definition.data.attributes, provide.data.attributes);
  }

  /** Every declared element must be supplied, whatever the attributes. */
  lemma MissingElementFails(pluginUrl: string, definition: Definition, provide: Provide, element: string)
    requires element in definition.data.elements && element !in provide.data.elements
    ensures NewProvider(pluginUrl, definition, provide).Failure?
    ensures MissingElement(element) in NewProvider(pluginUrl, definition, provide).error
  {
    assert MissingElement(element) in ElementViolations(definition.data.elements, provide.data.elements);
  }

  /**
   * An optional attribute may be left out: when the provide omits it, the
   * outcome is the same as if the schema did not declare it at all.
   */
  lemma OptionalAttributeMayBeOmitted(pluginUrl: string, definition: Definition, provide: Provide, key: string)
    requires key in definition.data.attributes && IsOptional(key) && AttributeName(key) !in provide.data.attributes
    ensures var reduced := definition.(data := definition.data.(attributes := definition.data.attributes - {key}));
      NewProvider(pluginUrl, definition, provide).Success? <==> NewProvider(pluginUrl, reduced, provide).Success?
    ensures NewProvider(pluginUrl, definition, provide).Success? ==>
      AttributeName(key) !in NewProvider(pluginUrl, definition, provide).value.attributes
  {
    var reduced := definition.(data := definition.data.(attributes := definition.data.attributes - {key}));
    ProviderSucceedsIff(pluginUrl, definition, provide);
    ProviderSucceedsIff(pluginUrl, reduced, provide);
  }
}

=== FILE: plugin_registry.dfy ===
/**
 * The state of the PluginManager as a value: the registry of loaded plugins,
 * their definitions and the providers built from their provides, and the
 * recursive loader that fills it, as functions from registry to registry.
 *
 * The manifest fetcher is a parameter `server`: a finite map from url to the
 * manifest served there; a url outside it is a fetch that fails. Loads run
 * one after the other, each to completion.
 */
module PluginRegistry {
  import opened Wrappers
  import opened PluginDataModel
  import opened PluginProviders

  /** One loaded manifest. */
  datatype Plugin = Plugin(name: string, url: string, dependencies: seq<string>, defines: Defines)

  /** How a load ends. Shape-invalid, duplicate and already-loaded manifests end in `Done`. */
  datatype Outcome =
    | Done
    | TransportFailure(url: string)
    | SchemaFailure(provider: string, violations: set<SchemaError>)

  /**
   * The registry's state: plugins in registration order, the root plugins
   * (those loaded directly rather than as a dependency), plugins by requested
   * url, definitions and providers by key, the order in which provider keys
   * first appeared, and every url handed to the fetcher, in order.
   */
  datatype Registry = Registry(
    plugins: seq<Plugin>,
    rootPlugins: seq<Plugin>,
    urls: map<string, Plugin>,
    definitions: map<string, Definition>,
    providers: map<string, Provider>,
    providerOrder: seq<string>,
    fetched: seq<string>)

  /** Nothing registered; `fetched` records the fetcher's calls, which `reset` does not undo. */
  function Cleared(fetched: seq<string>): Registry {
    Registry([], [], map[], map[], map[], [], fetched)
  }

  // ---------------------------------------------------------------------------
  // Queries

  /** getPlugin: the first registered plugin with this name. */
  function FindPlugin(plugins: seq<Plugin>, name: string): (r: Option<Plugin>)
    ensures r.Some? <==> exists i :: 0 <= i < |plugins| && plugins[i].name == name
    ensures r.Some? ==> r.value in plugins && r.value.name == name
  {
    if plugins == [] then None
    else if plugins[0].name == name then Some(plugins[0])
    else
      var r := FindPlugin(plugins[1..], name);
      assert forall i :: 1 <= i < |plugins| ==> plugins[i] == plugins[1..][i - 1];
      r
  }

  function PluginByUrl(r: Registry, url: string): Option<Plugin> {
    if url in r.urls then Some(r.urls[url]) else None
  }

  function DefinitionByKey(r: Registry, key: string): Option<Definition> {
    if key in r.definitions then Some(r.definitions[key]) else None
  }

  function ProviderByKey(r: Registry, key: string): Option<Provider> {
    if key in r.providers then Some(r.providers[key]) else None
  }

  /** The position of the first occurrence of `k` in `order`. */
  function IndexOf(order: seq<string>, k: string): (i: nat)
    requires k in order
    ensures i < |order| && order[i] == k
    ensures forall j :: 0 <= j < i ==> order[j] != k
  {
    if order[0] == k then 0 else 1 + IndexOf(order[1..], k)
  }

  /** No key occurs twice. */
  predicate Distinct(order: seq<string>) {
    forall i, j :: 0 <= i < j < |order| ==> order[i] != order[j]
  }

  /** Each provider is stored under its own name. */
  predicate KeyedByName(providers: map<string, Provider>) {
    forall k :: k in providers ==> providers[k].name == k
  }

  /** The providers listed in `order` whose definition is `definition`, in that order. */
  function FilterProviders(order: seq<string>, providers: map<string, Provider>, definition: string): (ps: seq<Provider>)
    ensures forall p :: p in ps ==> p.definition == definition && p in providers.Values
    ensures forall k :: k in order && k in providers && providers[k].definition == definition ==> providers[k] in ps
    ensures |ps| <= |order|
  {
    if order == [] then []
    else
      var rest := FilterProviders(order[1..], providers, definition);
      var k := order[0];
      if k in providers && providers[k].definition == definition then [providers[k]] + rest else rest
  }

  /**
   * When providers sit under their names and `order` repeats no key, the
   * filtered providers appear once each, in the relative order of their keys.
   */
  lemma {:induction false} FilterProvidersOrdered(order: seq<string>, providers: map<string, Provider>, definition: string)
    ensures KeyedByName(providers) && Distinct(order) ==>
      var ps := FilterProviders(order, providers, definition);
      && (forall p :: p in ps ==> p.name in order && providers[p.name] == p)
      && (forall i, j :: 0 <= i < j < |ps| ==> IndexOf(order, ps[i].name) < IndexOf(order, ps[j].name))
  {
    if KeyedByName(providers) && Distinct(order) && order != [] {
      var k := order[0];
      FilterProvidersOrdered(order[1..], providers, definition);
      var rest := FilterProviders(order[1..], providers, definition);
      forall p | p in rest
        ensures p.name != k && IndexOf(order, p.name) == 1 + IndexOf(order[1..], p.name)
      {
        IndexOfTail(order, p.name);
      }
    }
  }

  /** In a key order without repeats, a key of the tail is not the head and sits one place further on. */
  lemma IndexOfTail(order: seq<string>, k: string)
    requires Distinct(order) && order != [] && k in order[1..]
    ensures k != order[0] && IndexOf(order, k) == 1 + IndexOf(order[1..], k)
  {
    var j := IndexOf(order[1..], k);
    assert order[j + 1] == k;
  }

  /** getProviders: the providers of a definition, in insertion order. */
  function ProvidersFor(r: Registry, definition: string): seq<Provider> {
    FilterProviders(r.providerOrder, r.providers, definition)
  }

  // ---------------------------------------------------------------------------
  // Loading, as functions of the registry

  /** The plugin an accepted manifest describes. */
  function PluginOf(data: PluginData): Plugin
    requires Accepted(data)
  {
    Plugin(data.name.s, data.url.s, data.dependencies, data.defines)
  }

  /** A plugin with this name or this manifest url is already registered. */
  predicate IsRegistered(r: Registry, name: string, url: string) {
    exists p :: p in r.plugins && (p.name == name || p.url == url)
  }

  function DefineEntries(defines: Defines): seq<(string, PluginDataDefine)> {
    match defines
    case DefinesObject(entries) => entries
    case DefinesOther(_) => []
  }

  /** The definition for define `entry` of plugin `pluginName`. */
  function DefinitionOf(pluginName: string, entry: (string, PluginDataDefine)): Definition {
    Definition(pluginName, entry.0, entry.1)
  }

  /** Registers each define under `pluginName/defineName`, in order; a later entry overwrites. */
  function AddDefinitions(definitions: map<string, Definition>, pluginName: string, entries: seq<(string, PluginDataDefine)>)
    : map<string, Definition>
    decreases |entries|
  {
    if entries == [] then definitions
    else
      var d := DefinitionOf(pluginName, entries[0]);
      AddDefinitions(definitions[d.QualifiedName() := d], pluginName, entries[1..])
  }

  /** The keys added are the qualified define names; every other key keeps its definition. */
  lemma {:induction false} AddDefinitionsKeys(definitions: map<string, Definition>, pluginName: string,
                                              entries: seq<(string, PluginDataDefine)>)
    ensures var res := AddDefinitions(definitions, pluginName, entries);
      && res.Keys == definitions.Keys + (set e | e in entries :: Qualify(pluginName, e.0))
      && forall k :: k in res ==>
           (k in definitions && res[k] == definitions[k]) || (res[k].plugin == pluginName && res[k].QualifiedName() == k)
    decreases |entries|
  {
    if entries != [] {
      var d := DefinitionOf(pluginName, entries[0]);
      AddDefinitionsKeys(definitions[d.QualifiedName() := d], pluginName, entries[1..]);
      assert entries == [entries[0]] + entries[1..];
    }
  }

  /**
   * The definition stored for a define is that define's own: for the last
   * entry of each name, `pluginName/name` holds its Definition, schema
   * included; a key no entry names keeps its old definition.
   */
  lemma {:induction false} AddDefinitionsValues(definitions: map<string, Definition>, pluginName: string,
                                                entries: seq<(string, PluginDataDefine)>, i: nat)
    requires i < |entries| && forall j :: i < j < |entries| ==> entries[j].0 != entries[i].0
    ensures var res := AddDefinitions(definitions, pluginName, entries);
      Qualify(pluginName, entries[i].0) in res && res[Qualify(pluginName, entries[i].0)] == DefinitionOf(pluginName, entries[i])
    decreases |entries|
  {
    var d := DefinitionOf(pluginName, entries[0]);
    if i == 0 {
      forall j | 0 <= j < |entries[1..]|
        ensures Qualify(pluginName, entries[1..][j].0) != d.QualifiedName()
      {
        QualifySplits(pluginName, entries[1..][j].0);
        QualifySplits(pluginName, entries[0].0);
        assert entries[1..][j] == entries[j + 1];
      }
      AddDefinitionsFrame(definitions[d.QualifiedName() := d], pluginName, entries[1..], d.QualifiedName());
    } else {
      AddDefinitionsValues(definitions[d.QualifiedName() := d], pluginName, entries[1..], i - 1);
    }
  }

  /** A key that no entry names keeps its definition. */
  lemma {:induction false} AddDefinitionsFrame(definitions: map<string, Definition>, pluginName: string,
                                               entries: seq<(string, PluginDataDefine)>, k: string)
    requires k in definitions
    requires forall j :: 0 <= j < |entries| ==> Qualify(pluginName, entries[j].0) != k
    ensures var res := AddDefinitions(definitions, pluginName, entries);
      k in res && res[k] == definitions[k]
    decreases |entries|
  {
    if entries != [] {
      var d := DefinitionOf(pluginName, entries[0]);
      assert Qualify(pluginName, entries[0].0) != k;
      AddDefinitionsFrame(definitions[d.QualifiedName() := d], pluginName, entries[1..], k);
    }
  }

  /** Records `plugin` as loaded from `url` and registers its definitions. */
  function Register(r: Registry, url: string, plugin: Plugin, root: bool): Registry {
    r.(plugins := r.plugins + [plugin],
       rootPlugins := if root then r.rootPlugins + [plugin] else r.rootPlugins,
       urls := r.urls[url := plugin],
       definitions := AddDefinitions(r.definitions, plugin.name, DefineEntries(plugin.defines)))
  }

  /** The provides of one `provides` entry: the single value, or each array element in order. */
  function EntryProvides(pluginName: string, entry: (string, ProvideValue)): seq<Provide> {
    match entry.1
    case Single(p) => [Provide(pluginName, entry.0, p)]
    case Many(list) => seq(|list|, i requires 0 <= i < |list| => Provide(pluginName, entry.0, list[i]))
  }

  /** The provides of a `provides` block, each array flattened in place, in order. */
  function ProvideList(pluginName: string, entries: seq<(string, ProvideValue)>): (ps: seq<Provide>)
    ensures forall p :: p in ps ==> p.plugin == pluginName
  {
    if entries == [] then []
    else EntryProvides(pluginName, entries[0]) + ProvideList(pluginName, entries[1..])
  }

  /** The key a provide's provider is stored under: `define/provideName`. */
  function ProvideKey(p: Provide): string {
    Qualify(p.define, p.data.name)
  }

  /** A `provides` value offers `q`: it is `q` itself, or an array holding `q`. */
  predicate Offers(v: ProvideValue, q: PluginDataProvide) {
    v == Single(q) || (v.Many? && q in v.list)
  }

  /**
   * The flattened provides are exactly those the `provides` block offers:
   * one per single value and one per array element, each aimed at its key's
   * definition and attributed to the providing plugin.
   */
  lemma {:induction false} ProvideListMembers(pluginName: string, entries: seq<(string, ProvideValue)>, p: Provide)
    ensures p in ProvideList(pluginName, entries) <==>
      p.plugin == pluginName && exists e :: e in entries && e.0 == p.define && Offers(e.1, p.data)
    decreases |entries|
  {
    if entries != [] {
      ProvideListMembers(pluginName, entries[1..], p);
      assert forall e :: e in entries <==> e == entries[0] || e in entries[1..];
      var target := entries[0].0;
      match entries[0].1
      case Single(q) =>
      case Many(list) =>
        var here := EntryProvides(pluginName, entries[0]);
        if p.plugin == pluginName && p.define == target && p.data in list {
          var i :| 0 <= i < |list| && list[i] == p.data;
          assert here[i] == p;
        }
    }
  }

  /** Flattening keeps the order of the `provides` entries: a later entry's provides come later. */
  lemma {:induction false} ProvideListAppend(pluginName: string, a: seq<(string, ProvideValue)>, b: seq<(string, ProvideValue)>)
    ensures ProvideList(pluginName, a + b) == ProvideList(pluginName, a) + ProvideList(pluginName, b)
    decreases |a|
  {
    if a == [] {
      assert a + b == b;
    } else {
      assert (a + b)[0] == a[0] && (a + b)[1..] == a[1..] + b;
      ProvideListAppend(pluginName, a[1..], b);
    }
  }

  /**
   * One `provides` entry: a single value gives exactly one provide; an array
   * gives one provide per element, in array order; each is aimed at the
   * entry's key and attributed to the providing plugin.
   */
  lemma ProvideListEntry(pluginName: string, key: string, v: ProvideValue)
    ensures var ps := ProvideList(pluginName, [(key, v)]);
      && (v.Single? ==> ps == [Provide(pluginName, key, v.provide)])
      && (v.Many? ==> |ps| == |v.list| && forall i :: 0 <= i < |v.list| ==> ps[i] == Provide(pluginName, key, v.list[i]))
  {
    assert [(key, v)][0] == (key, v) && [(key, v)][1..] == [];
    assert ProvideList(pluginName, [(key, v)]) == EntryProvides(pluginName, (key, v));
  }

  /** Stores a provider under its name; a new key goes to the end of the insertion order. */
  function PutProvider(r: Registry, provider: Provider): Registry {
    r.(providers := r.providers[provider.name := provider],
       providerOrder := if provider.name in r.providers then r.providerOrder else r.providerOrder + [provider.name])
  }

  /**
   * Registration appends the plugin, makes it reachable by the requested url,
   * keeps every other url entry, and touches neither providers nor the fetch log.
   */
  lemma RegisterRecords(r: Registry, url: string, plugin: Plugin, root: bool)
    ensures var res := Register(r, url, plugin, root);
      && r.plugins < res.plugins && res.plugins[|r.plugins|] == plugin
      && PluginByUrl(res, url) == Some(plugin)
      && (forall u :: u in r.urls && u != url ==> PluginByUrl(res, u) == PluginByUrl(r, u))
      && res.(plugins := r.plugins, rootPlugins := r.rootPlugins, urls := r.urls, definitions := r.definitions) == r
  {
  }

  /**
   * Storing a provider makes getProvider return it under its name, keeps
   * every other key, lists the name in the insertion order once it is new,
   * and changes nothing else.
   */
  lemma PutProviderStores(r: Registry, provider: Provider)
    ensures var res := PutProvider(r, provider);
      && ProviderByKey(res, provider.name) == Some(provider)
      && (forall k :: k != provider.name ==> ProviderByKey(res, k) == ProviderByKey(r, k))
      && r.providerOrder <= res.providerOrder && |res.providerOrder| <= |r.providerOrder| + 1
      && (forall k :: k in res.providerOrder ==> k in r.providerOrder || k == provider.name)
      && (provider.name !in r.providers ==> provider.name in res.providerOrder)
      && res.(providers := r.providers, providerOrder := r.providerOrder) == r
  {
  }

  /** The later registry extends the earlier one; nothing is removed or replaced except definition values. */
  ghost predicate Grows(r: Registry, r': Registry) {
    && r.plugins <= r'.plugins
    && r.rootPlugins <= r'.rootPlugins
    && (forall u :: u in r.urls ==> u in r'.urls && r'.urls[u] == r.urls[u])
    && r.definitions.Keys <= r'.definitions.Keys
    && r.providers.Keys <= r'.providers.Keys
    && r.providerOrder <= r'.providerOrder
    && r.fetched <= r'.fetched
  }

  /**
   * Turns each provide whose target definition exists into a provider built
   * against the providing plugin's url; a provide with no such definition is
   * dropped. The first schema violation ends the load.
   */
  function AddProviders(r: Registry, pluginUrl: string, pending: seq<Provide>): (res: (Registry, Outcome))
    ensures Grows(r, res.0)
    ensures res.0.definitions == r.definitions && res.0.urls == r.urls && res.0.plugins == r.plugins
    ensures res.0.rootPlugins == r.rootPlugins && res.0.fetched == r.fetched
    decreases |pending|
  {
    if pending == [] then (r, Done)
    else
      var provide := pending[0];
      if provide.define !in r.definitions then AddProviders(r, pluginUrl, pending[1..])
      else
        match NewProvider(pluginUrl, r.definitions[provide.define], provide)
        case Failure(violations) => (r, SchemaFailure(ProvideKey(provide), violations))
        case Success(provider) => AddProviders(PutProvider(r, provider), pluginUrl, pending[1..])
  }

  /**
   * loadPlugin(url): skip a url already loaded; otherwise fetch, validate,
   * drop a shape-invalid manifest or one whose name or url is taken, and
   * otherwise register the plugin and go on with `Commit`.
   */
  function Load(r: Registry, server: map<string, PluginData>, url: string, root: bool): (res: (Registry, Outcome))
    ensures r.urls.Keys <= res.0.urls.Keys
    decreases |server.Keys - r.urls.Keys|, 0
  {
    if url in r.urls then (r, Done)
    else
      var afterFetch := r.(fetched := r.fetched + [url]);
      if url !in server then (afterFetch, TransportFailure(url))
      else
        var data := server[url];
        if !Accepted(data) then (afterFetch, Done)  // the validator reported errors: see ShapeAccepted
        else
          var plugin := PluginOf(data);
          if IsRegistered(afterFetch, plugin.name, plugin.url) then (afterFetch, Done)
          else
            var registered := Register(afterFetch, url, plugin, root);
            RegisterShrinksUnloaded(afterFetch, server, url, plugin, root);
            Commit(registered, server, plugin, ProvideList(plugin.name, data.provideEntries))
  }

  /** After registration: load the dependencies, then turn the provides into providers. */
  function Commit(registered: Registry, server: map<string, PluginData>, plugin: Plugin, pending: seq<Provide>)
    : (res: (Registry, Outcome))
    ensures registered.urls.Keys <= res.0.urls.Keys
    decreases |server.Keys - registered.urls.Keys|, 2
  {
    var loaded := LoadDeps(registered, server, plugin.dependencies);
    if loaded.1 != Done then loaded
    else AddProviders(loaded.0, plugin.url, pending)
  }

  /** Loads the dependency urls in order; the first failure ends the sequence. */
  function LoadDeps(r: Registry, server: map<string, PluginData>, deps: seq<string>): (res: (Registry, Outcome))
    ensures r.urls.Keys <= res.0.urls.Keys
    decreases |server.Keys - r.urls.Keys|, 1, |deps|
  {
    if deps == [] then (r, Done)
    else
      var first := Load(r, server, deps[0], false);
      if first.1 != Done then first
      else
        NoMoreUnloaded(server.Keys, r.urls.Keys, first.0.urls.Keys);
        LoadDeps(first.0, server, deps[1..])
  }

  /** Registering a plugin for an unloaded url leaves fewer unloaded urls: the loader's termination measure. */
  lemma RegisterShrinksUnloaded(r: Registry, server: map<string, PluginData>, url: string, plugin: Plugin, root: bool)
    requires url in server && url !in r.urls
    ensures |server.Keys - Register(r, url, plugin, root).urls.Keys| < |server.Keys - r.urls.Keys|
  {
    assert Register(r, url, plugin, root).urls.Keys == r.urls.Keys + {url};
    FewerUnloaded(server.Keys, r.urls.Keys, url);
  }

  /** One dependency step: load the first url, and go on with the rest only if it completed. */
  lemma LoadDepsStep(r: Registry, server: map<string, PluginData>, deps: seq<string>)
    requires deps != []
    ensures var first := Load(r, server, deps[0], false);
      && r.urls.Keys <= first.0.urls.Keys
      && LoadDeps(r, server, deps) == if first.1 != Done then first else LoadDeps(first.0, server, deps[1..])
  {
  }

  /** The loop form of `LoadDeps`: loading `deps[j]` either ends the sequence or leaves the rest to do. */
  lemma LoadDepsAdvance(before: Registry, server: map<string, PluginData>, deps: seq<string>, j: int,
                        after: Registry, outcome: Outcome)
    requires 0 <= j < |deps| && (after, outcome) == Load(before, server, deps[j], false)
    ensures before.urls.Keys <= after.urls.Keys
    ensures outcome != Done ==> (after, outcome) == LoadDeps(before, server, deps[j..])
    ensures outcome == Done ==> LoadDeps(after, server, deps[j + 1..]) == LoadDeps(before, server, deps[j..])
  {
    LoadDepsStep(before, server, deps[j..]);
    assert deps[j..][0] == deps[j] && deps[j..][1..] == deps[j + 1..];
  }

  lemma GrowsTransitive(r: Registry, r': Registry, r'': Registry)
    requires Grows(r, r') && Grows(r', r'')
    ensures Grows(r, r'')
  {
  }

  lemma RegisterGrows(r: Registry, url: string, plugin: Plugin, root: bool)
    requires url !in r.urls
    ensures Grows(r, Register(r, url, plugin, root))
  {
    AddDefinitionsKeys(r.definitions, plugin.name, DefineEntries(plugin.defines));
  }

  /** Fetching and registering, followed by any growth that adds no root, is growth with at most the one new root. */
  lemma FetchRegisterGrows(r: Registry, url: string, plugin: Plugin, root: bool, res: Registry)
    requires url !in r.urls
    requires var registered := Register(r.(fetched := r.fetched + [url]), url, plugin, root);
      Grows(registered, res) && res.rootPlugins == registered.rootPlugins
    ensures Grows(r, res)
    ensures !root ==> res.rootPlugins == r.rootPlugins
  {
    var registered := Register(r.(fetched := r.fetched + [url]), url, plugin, root);
    RegisterGrows(r.(fetched := r.fetched + [url]), url, plugin, root);
    GrowsTransitive(r, registered, res);
  }

  lemma NoMoreUnloaded(all: set<string>, loaded: set<string>, loaded': set<string>)
    requires loaded <= loaded'
    ensures |all - loaded'| <= |all - loaded|
  {
    var kept, gone := all - loaded', (all - loaded) - (all - loaded');
    assert all - loaded == kept + gone;
    assert kept * gone == {};
  }

  lemma FewerUnloaded(all: set<string>, loaded: set<string>, url: string)
    requires url in all && url !in loaded
    ensures |all - (loaded + {url})| < |all - loaded|
  {
    assert all - loaded == (all - (loaded + {url})) + {url};
  }

  // ---------------------------------------------------------------------------
  // The registry invariant

  /**
   * Plugin names and manifest urls are unique; roots and url entries are
   * registered plugins; each definition sits under its qualified name and
   * belongs to a registered plugin; each provider sits under its name, which
   * is its existing definition's key followed by `/provideName`; the provider
   * order lists each provider key once.
   */
  ghost predicate Valid(r: Registry) {
    && UniqueIdentities(r.plugins)
    && (forall p :: p in r.rootPlugins ==> p in r.plugins)
    && (forall u :: u in r.urls ==> r.urls[u] in r.plugins)
    && DefinitionsKeyed(r.definitions, r.plugins)
    && ProvidersKeyed(r.providers, r.definitions)
    && OrderLists(r.providerOrder, r.providers)
  }

  ghost predicate UniqueIdentities(plugins: seq<Plugin>) {
    forall i, j :: 0 <= i < j < |plugins| ==> plugins[i].name != plugins[j].name && plugins[i].url != plugins[j].url
  }

  ghost predicate DefinitionsKeyed(definitions: map<string, Definition>, plugins: seq<Plugin>) {
    forall k :: k in definitions ==>
      definitions[k].QualifiedName() == k && exists p :: p in plugins && p.name == definitions[k].plugin
  }

  ghost predicate ProvidersKeyed(providers: map<string, Provider>, definitions: map<string, Definition>) {
    forall k :: k in providers ==>
      providers[k].name == k && providers[k].definition in definitions && IsQualifiedBy(providers[k].definition, k)
  }

  ghost predicate OrderLists(order: seq<string>, providers: map<string, Provider>) {
    && (forall k :: k in order <==> k in providers)
    && Distinct(order)
  }

  /** After `reset`, and initially, the registry is empty and valid, and lists no provider of any definition. */
  lemma ClearedIsValid(fetched: seq<string>)
    ensures Valid(Cleared(fetched))
    ensures forall d :: ProvidersFor(Cleared(fetched), d) == []
  {
  }

  lemma RegisterKeepsValid(r: Registry, url: string, plugin: Plugin, root: bool)
    requires Valid(r) && url !in r.urls && !IsRegistered(r, plugin.name, plugin.url)
    ensures Valid(Register(r, url, plugin, root))
  {
    var r' := Register(r, url, plugin, root);
    AddDefinitionsKeys(r.definitions, plugin.name, DefineEntries(plugin.defines));
    forall k | k in r'.definitions
      ensures exists p :: p in r'.plugins && p.name == r'.definitions[k].plugin
    {
      if k in r.definitions && r'.definitions[k] == r.definitions[k] {
        var p :| p in r.plugins && p.name == r.definitions[k].plugin;
        assert p in r'.plugins;
      } else {
        assert plugin in r'.plugins;
      }
    }
  }

  lemma PutProviderKeepsValid(r: Registry, provider: Provider)
    requires Valid(r) && provider.definition in r.definitions && IsQualifiedBy(provider.definition, provider.name)
    ensures Valid(PutProvider(r, provider))
  {
    var r' := PutProvider(r, provider);
    assert ProvidersKeyed(r'.providers, r'.definitions);
    if provider.name !in r.providers {
      assert provider.name !in r.providerOrder;
      assert OrderLists(r'.providerOrder, r'.providers);
    }
  }

  lemma {:induction false} AddProvidersKeepsValid(r: Registry, pluginUrl: string, pending: seq<Provide>)
    requires Valid(r)
    ensures Valid(AddProviders(r, pluginUrl, pending).0)
    decreases |pending|
  {
    if pending != [] {
      var provide := pending[0];
      if provide.define !in r.definitions {
        AddProvidersKeepsValid(r, pluginUrl, pending[1..]);
      } else {
        var definition := r.definitions[provide.define];
        var built := NewProvider(pluginUrl, definition, provide);
        if built.Success? {
          ProviderResolved(pluginUrl, definition, provide);
          QualifySplits(definition.QualifiedName(), provide.data.name);
          PutProviderKeepsValid(r, built.value);
          AddProvidersKeepsValid(PutProvider(r, built.value), pluginUrl, pending[1..]);
        }
      }
    }
  }

  /** A load only adds: plugins, roots, url entries, keys and fetches; a dependency load adds no root. */
  lemma {:induction false} LoadGrows(r: Registry, server: map<string, PluginData>, url: string, root: bool)
    ensures Grows(r, Load(r, server, url, root).0)
    ensures !root ==> Load(r, server, url, root).0.rootPlugins == r.rootPlugins
    decreases |server.Keys - r.urls.Keys|, 0
  {
    if url !in r.urls && url in server && Accepted(server[url]) {
      var data := server[url];
      var afterFetch := r.(fetched := r.fetched + [url]);
      var plugin := PluginOf(data);
      if !IsRegistered(afterFetch, plugin.name, plugin.url) {
        var registered := Register(afterFetch, url, plugin, root);
        var pending := ProvideList(plugin.name, data.provideEntries);
        RegisterShrinksUnloaded(afterFetch, server, url, plugin, root);
        CommitGrows(registered, server, plugin, pending);
        FetchRegisterGrows(r, url, plugin, root, Commit(registered, server, plugin, pending).0);
        assert Load(r, server, url, root) == Commit(registered, server, plugin, pending);
      }
    }
  }

  lemma {:induction false} CommitGrows(registered: Registry, server: map<string, PluginData>, plugin: Plugin, pending: seq<Provide>)
    ensures Grows(registered, Commit(registered, server, plugin, pending).0)
    ensures Commit(registered, server, plugin, pending).0.rootPlugins == registered.rootPlugins
    decreases |server.Keys - registered.urls.Keys|, 2
  {
    LoadDepsGrows(registered, server, plugin.dependencies);
    var loaded := LoadDeps(registered, server, plugin.dependencies);
    if loaded.1 == Done {
      GrowsTransitive(registered, loaded.0, AddProviders(loaded.0, plugin.url, pending).0);
    }
  }

  lemma {:induction false} LoadDepsGrows(r: Registry, server: map<string, PluginData>, deps: seq<string>)
    ensures Grows(r, LoadDeps(r, server, deps).0)
    ensures LoadDeps(r, server, deps).0.rootPlugins == r.rootPlugins
    decreases |server.Keys - r.urls.Keys|, 1, |deps|
  {
    if deps != [] {
      var first := Load(r, server, deps[0], false);
      LoadGrows(r, server, deps[0], false);
      if first.1 == Done {
        NoMoreUnloaded(server.Keys, r.urls.Keys, first.0.urls.Keys);
        LoadDepsGrows(first.0, server, deps[1..]);
        GrowsTransitive(r, first.0, LoadDeps(first.0, server, deps[1..]).0);
      }
    }
  }

  /** Every load keeps the registry invariant: in particular no two plugins share a name or a url. */
  lemma {:induction false} LoadKeepsValid(r: Registry, server: map<string, PluginData>, url: string, root: bool)
    requires Valid(r)
    ensures Valid(Load(r, server, url, root).0)
    decreases |server.Keys - r.urls.Keys|, 0
  {
    if url !in r.urls && url in server && Accepted(server[url]) {
      var data := server[url];
      var afterFetch := r.(fetched := r.fetched + [url]);
      var plugin := PluginOf(data);
      if !IsRegistered(afterFetch, plugin.name, plugin.url) {
        var registered := Register(afterFetch, url, plugin, root);
        RegisterKeepsValid(afterFetch, url, plugin, root);
        RegisterShrinksUnloaded(afterFetch, server, url, plugin, root);
        CommitKeepsValid(registered, server, plugin, ProvideList(plugin.name, data.provideEntries));
      }
    }
  }

  lemma {:induction false} CommitKeepsValid(registered: Registry, server: map<string, PluginData>, plugin: Plugin, pending: seq<Provide>)
    requires Valid(registered)
    ensures Valid(Commit(registered, server, plugin, pending).0)
    decreases |server.Keys - registered.urls.Keys|, 2
  {
    LoadDepsKeepsValid(registered, server, plugin.dependencies);
    var loaded := LoadDeps(registered, server, plugin.dependencies);
    if loaded.1 == Done {
      AddProvidersKeepsValid(loaded.0, plugin.url, pending);
    }
  }

  lemma {:induction false} LoadDepsKeepsValid(r: Registry, server: map<string, PluginData>, deps: seq<string>)
    requires Valid(r)
    ensures Valid(LoadDeps(r, server, deps).0)
    decreases |server.Keys - r.urls.Keys|, 1, |deps|
  {
    if deps != [] {
      var first := Load(r, server, deps[0], false);
      LoadKeepsValid(r, server, deps[0], false);
      if first.1 == Done {
        NoMoreUnloaded(server.Keys, r.urls.Keys, first.0.urls.Keys);
        LoadDepsKeepsValid(first.0, server, deps[1..]);
      }
    }
  }

  // ---------------------------------------------------------------------------
  // The fetcher is never asked for a url that was already loaded

  /** `r'` extends the fetch log of `r` only with urls that `r` had not loaded. */
  ghost predicate FetchesOnlyUnloaded(r: Registry, r': Registry) {
    r.fetched <= r'.fetched && forall i :: |r.fetched| <= i < |r'.fetched| ==> r'.fetched[i] !in r.urls
  }

  lemma FetchesTransitive(r: Registry, r': Registry, r'': Registry)
    requires FetchesOnlyUnloaded(r, r') && FetchesOnlyUnloaded(r', r'') && r.urls.Keys <= r'.urls.Keys
    ensures FetchesOnlyUnloaded(r, r'')
  {
    forall i | |r.fetched| <= i < |r''.fetched|
      ensures r''.fetched[i] !in r.urls
    {
      if i < |r'.fetched| {
        assert r''.fetched[i] == r'.fetched[i];
      }
    }
  }

  /** Fetching an unloaded url and registering its plugin. */
  lemma RegisterFetchesOnce(r: Registry, url: string, plugin: Plugin, root: bool)
    requires url !in r.urls
    ensures var registered := Register(r.(fetched := r.fetched + [url]), url, plugin, root);
      && registered.fetched == r.fetched + [url]
      && FetchesOnlyUnloaded(r, registered) && r.urls.Keys <= registered.urls.Keys
  {
  }

  /** A load fetches only urls not loaded when it starts. */
  lemma {:induction false} LoadFetchesUnloaded(r: Registry, server: map<string, PluginData>, url: string, root: bool)
    ensures FetchesOnlyUnloaded(r, Load(r, server, url, root).0)
    decreases |server.Keys - r.urls.Keys|, 0
  {
    if url !in r.urls && url in server && Accepted(server[url]) {
      var data := server[url];
      var afterFetch := r.(fetched := r.fetched + [url]);
      var plugin := PluginOf(data);
      if !IsRegistered(afterFetch, plugin.name, plugin.url) {
        var registered := Register(afterFetch, url, plugin, root);
        var pending := ProvideList(plugin.name, data.provideEntries);
        RegisterShrinksUnloaded(afterFetch, server, url, plugin, root);
        CommitFetchesUnloaded(registered, server, plugin, pending);
        RegisterFetchesOnce(r, url, plugin, root);
        assert Load(r, server, url, root) == Commit(registered, server, plugin, pending);
        FetchesTransitive(r, registered, Commit(registered, server, plugin, pending).0);
      }
    }
  }

  lemma {:induction false} CommitFetchesUnloaded(registered: Registry, server: map<string, PluginData>, plugin: Plugin,
                                                 pending: seq<Provide>)
    ensures FetchesOnlyUnloaded(registered, Commit(registered, server, plugin, pending).0)
    decreases |server.Keys - registered.urls.Keys|, 2
  {
    LoadDepsFetchesUnloaded(registered, server, plugin.dependencies);
  }

  lemma {:induction false} LoadDepsFetchesUnloaded(r: Registry, server: map<string, PluginData>, deps: seq<string>)
    ensures FetchesOnlyUnloaded(r, LoadDeps(r, server, deps).0)
    decreases |server.Keys - r.urls.Keys|, 1, |deps|
  {
    if deps != [] {
      var first := Load(r, server, deps[0], false);
      LoadFetchesUnloaded(r, server, deps[0], false);
      if first.1 == Done {
        NoMoreUnloaded(server.Keys, r.urls.Keys, first.0.urls.Keys);
        LoadDepsFetchesUnloaded(first.0, server, deps[1..]);
        FetchesTransitive(r, first.0, LoadDeps(first.0, server, deps[1..]).0);
      }
    }
  }

  // ---------------------------------------------------------------------------
  // Every requested url is loaded or at least asked for

  /** After a load, its url is registered or was handed to the fetcher. */
  lemma LoadRequestsUrl(r: Registry, server: map<string, PluginData>, url: string, root: bool)
    ensures var res := Load(r, server, url, root).0;
      url in res.urls || url in res.fetched
  {
    if url !in r.urls && url in server && Accepted(server[url]) {
      var data := server[url];
      var afterFetch := r.(fetched := r.fetched + [url]);
      var plugin := PluginOf(data);
      if !IsRegistered(afterFetch, plugin.name, plugin.url) {
        var registered := Register(afterFetch, url, plugin, root);
        var pending := ProvideList(plugin.name, data.provideEntries);
        RegisterShrinksUnloaded(afterFetch, server, url, plugin, root);
        CommitGrows(registered, server, plugin, pending);
        assert Load(r, server, url, root) == Commit(registered, server, plugin, pending);
      }
    }
  }

  /** When a dependency list completes, every one of its urls is registered or was handed to the fetcher. */
  lemma {:induction false} LoadDepsRequestsAll(r: Registry, server: map<string, PluginData>, deps: seq<string>)
    ensures var res := LoadDeps(r, server, deps);
      res.1 == Done ==> forall d :: d in deps ==> d in res.0.urls || d in res.0.fetched
    decreases |server.Keys - r.urls.Keys|, 1, |deps|
  {
    if deps != [] {
      var first := Load(r, server, deps[0], false);
      if first.1 == Done {
        LoadRequestsUrl(r, server, deps[0], false);
        NoMoreUnloaded(server.Keys, r.urls.Keys, first.0.urls.Keys);
        LoadDepsRequestsAll(first.0, server, deps[1..]);
        LoadDepsGrows(first.0, server, deps[1..]);
        assert forall d :: d in deps ==> d == deps[0] || d in deps[1..];
      }
    }
  }

  // ---------------------------------------------------------------------------
  // Provides

  /** A provide yields a provider exactly when its target definition exists and the schema accepts it. */
  predicate Resolvable(r: Registry, pluginUrl: string, provide: Provide) {
    provide.define in r.definitions && NewProvider(pluginUrl, r.definitions[provide.define], provide).Success?
  }

  /**
   * Provides whose target definition is missing are dropped without an
   * error; when every target is missing nothing changes.
   */
  lemma {:induction false} UndefinedProvidesAreDropped(r: Registry, pluginUrl: string, pending: seq<Provide>)
    requires forall p :: p in pending ==> p.define !in r.definitions
    ensures AddProviders(r, pluginUrl, pending) == (r, Done)
    decreases |pending|
  {
    if pending != [] {
      assert pending[0] in pending;
      assert forall p :: p in pending[1..] ==> p in pending;
      UndefinedProvidesAreDropped(r, pluginUrl, pending[1..]);
    }
  }

  /** Adding providers stops with a schema failure exactly when some provide with an existing target is rejected. */
  lemma {:induction false} AddProvidersFails(r: Registry, pluginUrl: string, pending: seq<Provide>)
    ensures var res := AddProviders(r, pluginUrl, pending);
      && (res.1 == Done || res.1.SchemaFailure?)
      && (res.1.SchemaFailure? <==> exists p :: p in pending && p.define in r.definitions && !Resolvable(r, pluginUrl, p))
    decreases |pending|
  {
    if pending != [] {
      var provide := pending[0];
      assert forall p :: p in pending <==> p == provide || p in pending[1..];
      if provide.define !in r.definitions {
        AddProvidersFails(r, pluginUrl, pending[1..]);
      } else if Resolvable(r, pluginUrl, provide) {
        var r' := PutProvider(r, NewProvider(pluginUrl, r.definitions[provide.define], provide).value);
        AddProvidersFails(r', pluginUrl, pending[1..]);
        assert forall p :: Resolvable(r', pluginUrl, p) == Resolvable(r, pluginUrl, p);
      }
    }
  }

  /** In a valid registry, the provider built from a provide is keyed `define/provideName`. */
  lemma ResolvedKey(r: Registry, pluginUrl: string, provide: Provide)
    requires Valid(r) && Resolvable(r, pluginUrl, provide)
    ensures var provider := NewProvider(pluginUrl, r.definitions[provide.define], provide).value;
      && provider.name == ProvideKey(provide)
      && provider.definition == provide.define
      && Valid(PutProvider(r, provider))
  {
    var definition := r.definitions[provide.define];
    ProviderResolved(pluginUrl, definition, provide);
    QualifySplits(definition.QualifiedName(), provide.data.name);
    PutProviderKeepsValid(r, NewProvider(pluginUrl, definition, provide).value);
  }

  /**
   * When adding providers completes, every provide whose target definition
   * exists has a provider keyed `define/provideName`, and every new key is
   * such a provider's.
   */
  lemma {:induction false} AddProvidersKeys(r: Registry, pluginUrl: string, pending: seq<Provide>)
    requires Valid(r)
    ensures var res := AddProviders(r, pluginUrl, pending);
      && (res.1 == Done ==> forall p :: p in pending && p.define in r.definitions ==> ProvideKey(p) in res.0.providers)
      && (forall k :: k in res.0.providers && k !in r.providers ==>
            exists p :: p in pending && Resolvable(r, pluginUrl, p) && k == ProvideKey(p))
    decreases |pending|
  {
    if pending != [] {
      var provide := pending[0];
      assert forall p :: p in pending <==> p == provide || p in pending[1..];
      if provide.define !in r.definitions {
        AddProvidersKeys(r, pluginUrl, pending[1..]);
      } else if Resolvable(r, pluginUrl, provide) {
        ResolvedKey(r, pluginUrl, provide);
        var r' := PutProvider(r, NewProvider(pluginUrl, r.definitions[provide.define], provide).value);
        AddProvidersKeys(r', pluginUrl, pending[1..]);
        assert forall p :: Resolvable(r', pluginUrl, p) == Resolvable(r, pluginUrl, p);
      }
    }
  }

  /** No later provide with an existing target definition has the key of `pending[i]`. */
  ghost predicate LastWithKey(r: Registry, pending: seq<Provide>, i: nat)
    requires i < |pending|
  {
    forall j :: i < j < |pending| && pending[j].define in r.definitions ==> ProvideKey(pending[j]) != ProvideKey(pending[i])
  }

  /** A stored provider whose key no provide with an existing target shares is kept as it is. */
  lemma {:induction false} AddProvidersFrame(r: Registry, pluginUrl: string, pending: seq<Provide>, k: string)
    requires Valid(r) && k in r.providers
    requires forall j :: 0 <= j < |pending| && pending[j].define in r.definitions ==> ProvideKey(pending[j]) != k
    ensures var res := AddProviders(r, pluginUrl, pending).0;
      k in res.providers && res.providers[k] == r.providers[k]
    decreases |pending|
  {
    if pending != [] {
      var provide := pending[0];
      assert forall j :: 0 <= j < |pending[1..]| ==> pending[1..][j] == pending[j + 1];
      if provide.define !in r.definitions {
        AddProvidersFrame(r, pluginUrl, pending[1..], k);
      } else if Resolvable(r, pluginUrl, provide) {
        ResolvedKey(r, pluginUrl, provide);
        var r' := PutProvider(r, NewProvider(pluginUrl, r.definitions[provide.define], provide).value);
        AddProvidersFrame(r', pluginUrl, pending[1..], k);
      }
    }
  }

  /**
   * When adding providers completes, the provider stored under the key of
   * an accepted provide that no later provide overrides is the one built from it.
   */
  lemma {:induction false} AddProvidersValues(r: Registry, pluginUrl: string, pending: seq<Provide>, i: nat)
    requires Valid(r) && i < |pending| && Resolvable(r, pluginUrl, pending[i]) && LastWithKey(r, pending, i)
    ensures var res := AddProviders(r, pluginUrl, pending);
      res.1 == Done ==>
        && ProvideKey(pending[i]) in res.0.providers
        && res.0.providers[ProvideKey(pending[i])] == NewProvider(pluginUrl, r.definitions[pending[i].define], pending[i]).value
    decreases |pending|
  {
    var provide := pending[0];
    assert forall j :: 0 <= j < |pending[1..]| ==> pending[1..][j] == pending[j + 1];
    if provide.define !in r.definitions {
      AddProvidersValues(r, pluginUrl, pending[1..], i - 1);
    } else if Resolvable(r, pluginUrl, provide) {
      ResolvedKey(r, pluginUrl, provide);
      var r' := PutProvider(r, NewProvider(pluginUrl, r.definitions[provide.define], provide).value);
      if i == 0 {
        AddProvidersFrame(r', pluginUrl, pending[1..], ProvideKey(provide));
      } else {
        AddProvidersValues(r', pluginUrl, pending[1..], i - 1);
      }
    }
  }

  /**
   * When adding providers completes, each provide with an existing target was
   * accepted; unless a later provide overrides its key, getProvider returns
   * the provider built from it and getProviders of its definition lists it.
   */
  lemma AddProvidersListed(r: Registry, pluginUrl: string, pending: seq<Provide>, i: nat)
    requires Valid(r) && i < |pending| && pending[i].define in r.definitions && LastWithKey(r, pending, i)
    ensures var res := AddProviders(r, pluginUrl, pending);
      res.1 == Done ==>
        && Resolvable(r, pluginUrl, pending[i])
        && var provider := NewProvider(pluginUrl, r.definitions[pending[i].define], pending[i]).value;
           && ProviderByKey(res.0, ProvideKey(pending[i])) == Some(provider)
           && provider in ProvidersFor(res.0, pending[i].define)
  {
    var res := AddProviders(r, pluginUrl, pending);
    if res.1 == Done {
      AddProvidersFails(r, pluginUrl, pending);
      assert pending[i] in pending;
      AddProvidersValues(r, pluginUrl, pending, i);
      AddProvidersKeepsValid(r, pluginUrl, pending);
      ResolvedKey(r, pluginUrl, pending[i]);
      ProvidersForComplete(res.0, pending[i].define);
    }
  }

  /**
   * getProviders(definition) lists every stored provider of that definition,
   * and only those, each once, in the order in which their keys were first stored.
   */
  lemma ProvidersForComplete(r: Registry, definition: string)
    requires Valid(r)
    ensures forall k :: k in r.providers && r.providers[k].definition == definition ==> r.providers[k] in ProvidersFor(r, definition)
    ensures forall p :: p in ProvidersFor(r, definition) ==> p.definition == definition && p in r.providers.Values
    ensures var ps := ProvidersFor(r, definition);
      && (forall p :: p in ps ==> p.name in r.providerOrder)
      && (forall i, j :: 0 <= i < j < |ps| ==> IndexOf(r.providerOrder, ps[i].name) < IndexOf(r.providerOrder, ps[j].name))
  {
    FilterProvidersOrdered(r.providerOrder, r.providers, definition);
  }

  // ---------------------------------------------------------------------------
  // What one load does

  /** A url already loaded is not fetched again and changes nothing. */
  lemma LoadedUrlIsNotFetched(r: Registry, server: map<string, PluginData>, url: string, root: bool)
    requires url in r.urls
    ensures Load(r, server, url, root) == (r, Done)
  {
  }

  /** A failed fetch is reported, after one fetch of the url, and registers nothing. */
  lemma FailedFetchIsReported(r: Registry, server: map<string, PluginData>, url: string, root: bool)
    requires url !in r.urls && url !in server
    ensures Load(r, server, url, root) == (r.(fetched := r.fetched + [url]), TransportFailure(url))
  {
  }

  /** A shape-invalid manifest is fetched once and silently dropped. */
  lemma InvalidManifestIsDropped(r: Registry, server: map<string, PluginData>, url: string, root: bool)
    requires url !in r.urls && url in server && ShapeErrors(server[url]) != []
    ensures Load(r, server, url, root) == (r.(fetched := r.fetched + [url]), Done)
  {
    ShapeAccepted(server[url]);
  }

  /** A manifest whose name or url is already registered is fetched once and dropped. */
  lemma DuplicatePluginIsDropped(r: Registry, server: map<string, PluginData>, url: string, root: bool)
    requires url !in r.urls && url in server && Accepted(server[url])
    requires IsRegistered(r, PluginOf(server[url]).name, PluginOf(server[url]).url)
    ensures Load(r, server, url, root) == (r.(fetched := r.fetched + [url]), Done)
  {
    var plugin := PluginOf(server[url]);
    assert IsRegistered(r.(fetched := r.fetched + [url]), plugin.name, plugin.url);
  }

  /** In a valid registry the plugin at index `i` is the one getPlugin finds by its name. */
  lemma {:induction false} FindPluginUnique(plugins: seq<Plugin>, i: nat)
    requires i < |plugins|
    requires forall j, k :: 0 <= j < k < |plugins| ==> plugins[j].name != plugins[k].name
    ensures FindPlugin(plugins, plugins[i].name) == Some(plugins[i])
  {
    if i > 0 {
      assert plugins[1..][i - 1] == plugins[i];
      FindPluginUnique(plugins[1..], i - 1);
    }
  }

  /**
   * A new, valid manifest is registered: it is reachable by its name and by
   * the requested url (not its own url), is the one new root exactly when
   * loaded directly (dependency loads add no root), was fetched once, and each of its defines has a definition
   * under `pluginName/defineName`.
   */
  lemma NewPluginIsRegistered(r: Registry, server: map<string, PluginData>, url: string, root: bool)
    requires Valid(r)
    requires url !in r.urls && url in server && Accepted(server[url])
    requires !IsRegistered(r, PluginOf(server[url]).name, PluginOf(server[url]).url)
    ensures var data := server[url];
      var plugin := PluginOf(data);
      var res := Load(r, server, url, root).0;
      && |r.plugins| < |res.plugins| && res.plugins[|r.plugins|] == plugin
      && FindPlugin(res.plugins, plugin.name) == Some(plugin)
      && PluginByUrl(res, url) == Some(plugin)
      && res.rootPlugins == (if root then r.rootPlugins + [plugin] else r.rootPlugins)
      && |r.fetched| < |res.fetched| && res.fetched[|r.fetched|] == url
      && (forall i :: |r.fetched| < i < |res.fetched| ==> res.fetched[i] != url)
      && (forall e :: e in DefineEntries(data.defines) ==> Qualify(plugin.name, e.0) in res.definitions)
      && (Load(r, server, url, root).1 == Done ==> forall d :: d in plugin.dependencies ==> d in res.urls || d in res.fetched)
  {
    var data := server[url];
    var plugin := PluginOf(data);
    var afterFetch := r.(fetched := r.fetched + [url]);
    var registered := Register(afterFetch, url, plugin, root);
    var pending := ProvideList(plugin.name, data.provideEntries);
    LoadCommits(r, server, url, root);
    var res := Commit(registered, server, plugin, pending).0;
    CommitGrows(registered, server, plugin, pending);
    LoadKeepsValid(r, server, url, root);
    AddDefinitionsKeys(afterFetch.definitions, plugin.name, DefineEntries(plugin.defines));
    assert registered.plugins[|r.plugins|] == plugin;
    assert res.plugins[|r.plugins|] == plugin;
    FindPluginUnique(res.plugins, |r.plugins|);
    assert registered.fetched[|r.fetched|] == url;
    CommitFetchesUnloaded(registered, server, plugin, pending);
    LoadDepsRequestsAll(registered, server, plugin.dependencies);
  }

  /** A new, valid manifest is registered, then its dependencies and provides are committed. */
  lemma LoadCommits(r: Registry, server: map<string, PluginData>, url: string, root: bool)
    requires url !in r.urls && url in server && Accepted(server[url])
    requires !IsRegistered(r, PluginOf(server[url]).name, PluginOf(server[url]).url)
    ensures var plugin := PluginOf(server[url]);
      Load(r, server, url, root)
      == Commit(Register(r.(fetched := r.fetched + [url]), url, plugin, root), server, plugin,
                ProvideList(plugin.name, server[url].provideEntries))
  {
    var plugin := PluginOf(server[url]);
    assert !IsRegistered(r.(fetched := r.fetched + [url]), plugin.name, plugin.url);
  }

  /**
   * A new, valid manifest without dependencies: it is registered and its
   * provides are added, with nothing else loaded.
   */
  lemma StandaloneLoad(r: Registry, server: map<string, PluginData>, url: string, root: bool)
    requires url !in r.urls && url in server && Accepted(server[url]) && server[url].dependencies == []
    requires !IsRegistered(r, PluginOf(server[url]).name, PluginOf(server[url]).url)
    ensures var plugin := PluginOf(server[url]);
      Load(r, server, url, root)
      == AddProviders(Register(r.(fetched := r.fetched + [url]), url, plugin, root), plugin.url,
                      ProvideList(plugin.name, server[url].provideEntries))
  {
    LoadCommits(r, server, url, root);
  }
}

=== FILE: plugin_scenarios.dfy ===
/**
 * The documented behaviour of PluginProvider and PluginManager, case by case,
 * on the concrete manifests of the unit tests.
 */
module PluginScenarios {
  import opened Wrappers
  import opened PluginDataModel
  import opened PluginProviders
  import opened PluginRegistry

  // ---------------------------------------------------------------------------
  // Provider construction

  const Element1 := PluginDataProvideElement("element1Url", IFrame)

  function TestDefinition(attributes: map<string, TypeSpec>): Definition {
    Definition("definitionPlugin", "definitionName", PluginDataDefine(attributes, {"element1"}))
  }

  function TestProvide(attributes: map<string, AttributeValue>, elements: map<string, PluginDataProvideElement>): Provide {
    Provide("providePlugin", "provideDefine", PluginDataProvide("provideName", attributes, elements))
  }

  /** No attributes, no elements: keys come from the definition, not from the provide's target. */
  lemma EmptyProviderScenario()
    ensures var r := NewProvider("pluginUrl", Definition("definitionPlugin", "definitionName", PluginDataDefine(map[], {})),
                                 Provide("providePlugin", "provideDefine", PluginDataProvide("provideName", map[], map[])));
      && r.Success?
      && r.value.plugin == "providePlugin"
      && r.value.definition == "definitionPlugin/definitionName"
      && r.value.name == "definitionPlugin/definitionName/provideName"
      && r.value.attributes == map[] && r.value.elements == map[]
  {
    EmptyDefinitionProvider("pluginUrl", Definition("definitionPlugin", "definitionName", PluginDataDefine(map[], {})),
                            Provide("providePlugin", "provideDefine", PluginDataProvide("provideName", map[], map[])));
  }

  const ValidDefinition := TestDefinition(map["att1" := StringType, "att2?" := StringType])
  const ValidProvide := TestProvide(map["att1" := Text("value1")], map["element1" := Element1])

  /** A valid provide that omits the optional `att2?`: the attribute is copied and the element url resolved. */
  lemma ValidProviderScenario()
    ensures var r := NewProvider("pluginUrl", ValidDefinition, ValidProvide);
      && r.Success?
      && r.value.attributes == map["att1" := Text("value1")]
      && r.value.GetAttribute("att1") == Some(Text("value1"))
      && r.value.elements == map["element1" := ProviderElement("pluginUrlelement1Url", IFrame)]
      && r.value.GetElement("element1") == Some(ProviderElement("pluginUrlelement1Url", IFrame))
  {
    ValidProviderElements();
    ValidProviderAttributes();
  }

  /** The schema declares `att1` and `att2`; the provide supplies `att1` as a string. */
  lemma ValidProviderAttributes()
    ensures DeclaredAttributes(ValidDefinition.data.attributes) == {"att1", "att2"}
    ensures var r := NewProvider("pluginUrl", ValidDefinition, ValidProvide);
      r.Success? && r.value.attributes == map["att1" := Text("value1")]
  {
    assert IsOptional("att2?") && "att2?"[..4] == "att2";
    assert !IsOptional("att1");
    assert DeclaredAttributes(ValidDefinition.data.attributes) == {"att1", "att2"} by {
      assert AttributeName("att1") == "att1" && AttributeName("att2?") == "att2";
      assert ValidDefinition.data.attributes.Keys == {"att1", "att2?"};
    }
    ProviderSucceedsIff("pluginUrl", ValidDefinition, ValidProvide);
    ProviderResolved("pluginUrl", ValidDefinition, ValidProvide);
    var p := NewProvider("pluginUrl", ValidDefinition, ValidProvide).value;
    assert p.attributes.Keys == {"att1"};
  }

  /** The one declared element is supplied and resolved against the plugin url. */
  lemma ValidProviderElements()
    ensures var r := NewProvider("pluginUrl", ValidDefinition, ValidProvide);
      r.Success? && r.value.elements == map["element1" := ProviderElement("pluginUrlelement1Url", IFrame)]
  {
    ValidProviderAttributes();
    ProviderResolved("pluginUrl", ValidDefinition, ValidProvide);
    var p := NewProvider("pluginUrl", ValidDefinition, ValidProvide).value;
    assert p.elements.Keys == {"element1"};
    assert p.elements["element1"] == ProviderElement("pluginUrlelement1Url", IFrame);
  }

  /** A "string[]" attribute given a string, and a "string" attribute given an array, both fail. */
  lemma MismatchScenarios()
    ensures NewProvider("pluginUrl", TestDefinition(map["att1" := StringArrayType]),
                        TestProvide(map["att1" := Text("value1")], map["element1" := Element1])).Failure?
    ensures NewProvider("pluginUrl", TestDefinition(map["att1" := StringType]),
                        TestProvide(map["att1" := TextArray(["value1", "value2"])], map["element1" := Element1])).Failure?
  {
    assert !IsOptional("att1");
    AttributeTypeMismatchFails("pluginUrl", TestDefinition(map["att1" := StringArrayType]),
                               TestProvide(map["att1" := Text("value1")], map["element1" := Element1]), "att1");
    AttributeTypeMismatchFails("pluginUrl", TestDefinition(map["att1" := StringType]),
                               TestProvide(map["att1" := TextArray(["value1", "value2"])], map["element1" := Element1]), "att1");
  }

  /** A missing mandatory attribute fails, and so does a missing element with valid attributes. */
  lemma MissingScenarios()
    ensures NewProvider("pluginUrl", TestDefinition(map["att1" := StringType]),
                        TestProvide(map[], map["element1" := Element1])).Failure?
    ensures NewProvider("pluginUrl", TestDefinition(map["att1" := StringType]),
                        TestProvide(map["att1" := Text("value1")], map[])).Failure?
  {
    assert !IsOptional("att1");
    MissingMandatoryAttributeFails("pluginUrl", TestDefinition(map["att1" := StringType]),
                                   TestProvide(map[], map["element1" := Element1]), "att1");
    MissingElementFails("pluginUrl", TestDefinition(map["att1" := StringType]),
                        TestProvide(map["att1" := Text("value1")], map[]), "element1");
  }

  // ---------------------------------------------------------------------------
  // The manager

  /** A manifest with a name, a url and nothing else. */
  function Manifest(name: string, url: string): PluginData {
    PluginData(Str(name), Str(url), [], DefinesOther(Undefined), [])
  }

  /**
   * A basic manifest: one fetch of the requested url, one plugin, which is the
   * one root, found by name and by the requested url (not by its own url).
   */
  lemma BasicPluginScenario()
    ensures var res := Load(Cleared([]), map["url" := Manifest("pluginName", "pluginUrl")], "url", true);
      var plugin := Plugin("pluginName", "pluginUrl", [], DefinesOther(Undefined));
      && res == (Registry([plugin], [plugin], map["url" := plugin], map[], map[], [], ["url"]), Done)
      && FindPlugin(res.0.plugins, "pluginName") == Some(plugin)
      && PluginByUrl(res.0, "url") == Some(plugin)
      && PluginByUrl(res.0, "pluginUrl") == None
  {
    var server := map["url" := Manifest("pluginName", "pluginUrl")];
    var r := Cleared([]);
    var plugin := PluginOf(server["url"]);
    StandaloneLoad(r, server, "url", true);
    assert r.fetched + ["url"] == ["url"];
    var registered := Register(r.(fetched := ["url"]), "url", plugin, true);
    assert registered == Registry([plugin], [plugin], map["url" := plugin], map[], map[], [], ["url"]);
    assert ProvideList(plugin.name, []) == [];
    var res := Load(r, server, "url", true);
    assert res == (registered, Done);
    FindPluginUnique(res.0.plugins, 0);
  }

  /** Loading the same url twice fetches it once. */
  lemma SameUrlTwiceScenario()
    ensures var server := map["url" := Manifest("pluginName", "pluginUrl")];
      var first := Load(Cleared([]), server, "url", true);
      var second := Load(first.0, server, "url", true);
      second == first && second.0.fetched == ["url"]
  {
    var server := map["url" := Manifest("pluginName", "pluginUrl")];
    BasicPluginScenario();
    LoadedUrlIsNotFetched(Load(Cleared([]), server, "url", true).0, server, "url", true);
  }

  /** Two urls serving manifests with the same name: two fetches, one plugin. */
  lemma SameNameScenario()
    ensures var server := map["url" := Manifest("pluginName", "pluginUrl"), "url2" := Manifest("pluginName", "pluginUrl")];
      var first := Load(Cleared([]), server, "url", true);
      var second := Load(first.0, server, "url2", true);
      && second.1 == Done
      && second.0.fetched == ["url", "url2"]
      && |second.0.plugins| == 1
  {
    var server := map["url" := Manifest("pluginName", "pluginUrl"), "url2" := Manifest("pluginName", "pluginUrl")];
    var r := Cleared([]);
    var plugin := PluginOf(server["url"]);
    StandaloneLoad(r, server, "url", true);
    assert r.fetched + ["url"] == ["url"];
    var registered := Register(r.(fetched := ["url"]), "url", plugin, true);
    assert ProvideList(plugin.name, []) == [];
    var first := Load(r, server, "url", true);
    assert first == (registered, Done);
    assert first.0.plugins == [plugin];
    DuplicatePluginIsDropped(first.0, server, "url2", true);
    assert first.0.fetched + ["url2"] == ["url", "url2"];
  }

  /** A manifest without a url is fetched once, registers nothing and ends normally. */
  lemma InvalidDataScenario()
    ensures var data := PluginData(Str("pluginName"), Undefined, [], DefinesOther(Undefined), []);
      && ShapeErrors(data) == [URL_MISSING]
      && Load(Cleared([]), map["url" := data], "url", true) == (Cleared(["url"]), Done)
  {
    var data := PluginData(Str("pluginName"), Undefined, [], DefinesOther(Undefined), []);
    ShapeErrorsUnfold(data);
    InvalidManifestIsDropped(Cleared([]), map["url" := data], "url", true);
    assert [] + ["url"] == ["url"];
  }

  /** A root with one dependency: two fetches, two plugins, one root. */
  lemma DependencyScenario()
    ensures var data := PluginData(Str("pluginName"), Str("pluginUrl"), ["depUrl"], DefinesOther(Undefined), []);
      var res := Load(Cleared([]), map["url" := data, "depUrl" := Manifest("dependencyName", "dependencyUrl")], "url", true);
      && res.1 == Done
      && res.0.fetched == ["url", "depUrl"]
      && res.0.plugins == [PluginOf(data), Plugin("dependencyName", "dependencyUrl", [], DefinesOther(Undefined))]
      && res.0.rootPlugins == [PluginOf(data)]
  {
    var data := PluginData(Str("pluginName"), Str("pluginUrl"), ["depUrl"], DefinesOther(Undefined), []);
    var server := map["url" := data, "depUrl" := Manifest("dependencyName", "dependencyUrl")];
    var r := Cleared([]);
    var plugin := PluginOf(data);
    LoadCommits(r, server, "url", true);
    assert r.fetched + ["url"] == ["url"];
    var registered := Register(r.(fetched := ["url"]), "url", plugin, true);
    assert registered == Registry([plugin], [plugin], map["url" := plugin], map[], map[], [], ["url"]);
    var dependency := PluginOf(server["depUrl"]);
    assert !IsRegistered(registered, dependency.name, dependency.url);
    StandaloneLoad(registered, server, "depUrl", false);
    assert ProvideList(dependency.name, []) == [];
    var loaded := Register(registered.(fetched := ["url", "depUrl"]), "depUrl", dependency, false);
    assert registered.fetched + ["depUrl"] == ["url", "depUrl"];
    assert Load(registered, server, "depUrl", false) == (loaded, Done);
    assert ["depUrl"][1..] == [];
    assert LoadDeps(registered, server, ["depUrl"]) == (loaded, Done);
    assert ProvideList(plugin.name, []) == [];
  }

  /** A provide whose target definition does not exist is dropped without an error. */
  lemma UndefinedProvideScenario()
    ensures var data := PluginData(Str("pluginName"), Str("pluginUrl"), [], DefinesOther(Undefined),
                                   [("define1", Single(PluginDataProvide("test", map[], map[])))]);
      var res := Load(Cleared([]), map["url" := data], "url", true);
      res.1 == Done && res.0.providers == map[] && |res.0.plugins| == 1
  {
    var data := PluginData(Str("pluginName"), Str("pluginUrl"), [], DefinesOther(Undefined),
                           [("define1", Single(PluginDataProvide("test", map[], map[])))]);
    var server := map["url" := data];
    var r := Cleared([]);
    var plugin := PluginOf(data);
    StandaloneLoad(r, server, "url", true);
    var registered := Register(r.(fetched := r.fetched + ["url"]), "url", plugin, true);
    assert registered.definitions == map[];
    var pending := ProvideList(plugin.name, data.provideEntries);
    assert pending == [Provide("pluginName", "define1", PluginDataProvide("test", map[], map[]))];
    UndefinedProvidesAreDropped(registered, plugin.url, pending);
  }

  const Define1 := PluginDataDefine(map[], {})

  /** The manifest `pluginName` declaring `define1` with an empty schema. */
  const DefiningManifest := PluginData(Str("pluginName"), Str("pluginUrl"), [], DefinesObject([("define1", Define1)]), [])

  /** The registry after loading the defining manifest from "url". */
  lemma DefinesScenario()
    ensures var res := Load(Cleared([]), map["url" := DefiningManifest], "url", true);
      && res.1 == Done
      && res.0.definitions == map["pluginName/define1" := Definition("pluginName", "define1", Define1)]
      && DefinitionByKey(res.0, "pluginName/define1") == Some(Definition("pluginName", "define1", Define1))
  {
    var r := Cleared([]);
    var server := map["url" := DefiningManifest];
    StandaloneLoad(r, server, "url", true);
    var plugin := PluginOf(DefiningManifest);
    var d := Definition("pluginName", "define1", Define1);
    assert d.QualifiedName() == "pluginName/define1";
    assert AddDefinitions(map[], "pluginName", [("define1", Define1)]) == map["pluginName/define1" := d] by {
      assert [("define1", Define1)][1..] == [];
    }
    assert ProvideList(plugin.name, []) == [];
  }

  /** The manifest `childName` providing `child` for `pluginName/define1`. */
  const ChildManifest := PluginData(Str("childName"), Str("childUrl"), [], DefinesOther(Undefined),
                                    [("pluginName/define1", Single(PluginDataProvide("child", map[], map[])))])

  /**
   * The defining manifest from "url", then the providing one from "urlChild":
   * two fetches, and one provider keyed `pluginName/define1/child`, found by
   * key and listed for its definition.
   */
  lemma ProvidesScenario()
    ensures var first := Load(Cleared([]), map["url" := DefiningManifest], "url", true);
      var res := Load(first.0, map["urlChild" := ChildManifest], "urlChild", true);
      var provider := Provider("childName", "pluginName/define1", "pluginName/define1/child", map[], map[]);
      && res.1 == Done
      && res.0.fetched == ["url", "urlChild"]
      && res.0.providers == map["pluginName/define1/child" := provider]
      && ProviderByKey(res.0, "pluginName/define1/child") == Some(provider)
      && ProvidersFor(res.0, "pluginName/define1") == [provider]
  {
    DefinesScenario();
    var first := Load(Cleared([]), map["url" := DefiningManifest], "url", true);
    var r := first.0;
    var server := map["urlChild" := ChildManifest];
    var definition := Definition("pluginName", "define1", Define1);
    LoadedRegistry(first.0);
    assert r.fetched + ["urlChild"] == ["url", "urlChild"];
    StandaloneLoad(r, server, "urlChild", true);
    var child := PluginOf(ChildManifest);
    var registered := Register(r.(fetched := ["url", "urlChild"]), "urlChild", child, true);
    assert registered.definitions == r.definitions;
    ChildProvides(registered);
    var provider := Provider("childName", "pluginName/define1", "pluginName/define1/child", map[], map[]);
    var done := registered.(providers := map["pluginName/define1/child" := provider], providerOrder := ["pluginName/define1/child"]);
    assert FilterProviders(done.providerOrder, done.providers, "pluginName/define1") == [provider];
  }

  /** The child's provide, added to a registry holding only `pluginName/define1`, becomes the one provider. */
  lemma ChildProvides(registered: Registry)
    requires registered.definitions == map["pluginName/define1" := Definition("pluginName", "define1", Define1)]
    requires registered.providers == map[] && registered.providerOrder == []
    ensures var provider := Provider("childName", "pluginName/define1", "pluginName/define1/child", map[], map[]);
      AddProviders(registered, "childUrl", ProvideList("childName", ChildManifest.provideEntries))
      == (registered.(providers := map["pluginName/define1/child" := provider], providerOrder := ["pluginName/define1/child"]), Done)
  {
    var definition := Definition("pluginName", "define1", Define1);
    var provide := Provide("childName", "pluginName/define1", PluginDataProvide("child", map[], map[]));
    assert ProvideList("childName", ChildManifest.provideEntries) == [provide];
    EmptyDefinitionProvider("childUrl", definition, provide);
    assert Qualify("pluginName", "define1") == "pluginName/define1";
    assert Qualify("pluginName/define1", "child") == "pluginName/define1/child";
    var provider := Provider("childName", "pluginName/define1", "pluginName/define1/child", map[], map[]);
    assert NewProvider("childUrl", definition, provide) == Success(provider);
    assert [provide][1..] == [];
    assert [] + ["pluginName/define1/child"] == ["pluginName/define1/child"];
    var done := PutProvider(registered, provider);
    assert done == registered.(providers := map["pluginName/define1/child" := provider], providerOrder := ["pluginName/define1/child"]);
    assert AddProviders(registered, "childUrl", [provide]) == AddProviders(done, "childUrl", []);
  }

  /** The registry after the defining manifest, spelled out. */
  lemma LoadedRegistry(r: Registry)
    requires r == Load(Cleared([]), map["url" := DefiningManifest], "url", true).0
    ensures r.fetched == ["url"] && r.providers == map[] && r.providerOrder == []
    ensures r.plugins == [PluginOf(DefiningManifest)] && "urlChild" !in r.urls
    ensures r.definitions == map["pluginName/define1" := Definition("pluginName", "define1", Define1)]
  {
    var server := map["url" := DefiningManifest];
    StandaloneLoad(Cleared([]), server, "url", true);
    DefinesScenario();
    assert [] + ["url"] == ["url"];
    assert ProvideList("pluginName", []) == [];
  }
}

=== FILE: wrappers.dfy ===
/** Optional values and results with an error, for lookups that may miss and constructions that may fail. */
module Wrappers {

  datatype Option<+T> = None | Some(value: T)

  datatype Result<+R, +E> = Success(value: R) | Failure(error: E)
}
